=== FILE: README.md ===
# Sowing-window rain engine, modelled in Dafny

This project models the decision engine of a small dashboard that tells a
farmer whether the soil is moist enough to sow. The engine has four parts:

- **Station history.** It reads the last seven days of rain from a
  user-defined weather station. A CSV station reports a rain *rate*. The rows
  are parsed, de-duplicated (first wins) and sorted. The rate is then
  integrated over time, and gaps over 24 h are skipped. A JSON station is
  read through a dotted path, and an array is summed there.
- **Fallback.** If the station cannot be read, the forecast service's past
  days are used instead.
- **Classification.** The seven-day total is classified against configurable
  PERFECT / OPTIMAL / MINIMUM thresholds. The first rule that matches wins. In
  the MINIMUM band the result is downgraded to "Arriesgada" when too little
  follow-up rain is forecast.
- **Configuration.** The configuration is a saved JSON blob merged over the
  defaults, two levels deep.

The earlier React version of the dashboard (`src/App.js`) is modelled beside
it. It uses fixed 90 / 70 / 40 thresholds and a "next rain day" rule.

Modules, one per component:

| module | models |
|---|---|
| `Text` | `trim`, `split` on a character class, ASCII `toLowerCase`, quote stripping, `indexOf` |
| `Json` | parsed JSON values, truthiness, property lookup (object keys, array/string indices, `length`) |
| `Sums` | `reduce` sums and the `x \|\| 0` coercion |
| `RainSeries` | dedup, chronological sort and rate × Δt integration of station records |
| `StationCsv`, `StationJson`, `StationFetch` | `fetchStationHistory`, by format |
| `Forecast` | the forecast service's daily series and the five shown day cells |
| `Recommendation` | the configurable rule engine of `processAndRecommend` in `main.js` |
| `Dashboard` | `initLiveDashboard`: configuration reading, source selection, error panel |
| `LegacyDashboard` | `processAndRecommend` and the render of `src/App.js` |
| `Config` | `ConfigManager.get` and `ConfigManager.save` |

Some operations are passed in as parameters rather than modelled:

- text-to-date (`new Date(s.endsWith('Z') ? s : s + 'Z')`);
- `parseFloat`;
- `Number(string)`;
- `JSON.parse`;
- `JSON.stringify`.

Network answers are inputs too. A failed request or a failed parse is
`None`, and it reaches the same error paths as in the source.

Behaviour the source has and the model keeps:

- A CSV row that is long enough to hold the rain column but too short to
  hold the date column has no date cell. Reading it throws, so the whole
  station read fails. The dashboard then falls back to the forecast
  service's history. `StationCsv.CsvTotal` returns None for it.
- The CSV column name taken from the station mapping is not lower-cased,
  but the headers are. So a mapping with an upper-case letter never matches,
  and the station reads 0 (`StationCsv.UppercaseMappingReadsZero`).
- A missing CSV column gives 0, not a failure. The dashboard then shows the
  station as the source with 0 mm.
- The first record's rate never contributes to the integral
  (`RainSeries.FirstRateIgnored`).
- The label "Open-Meteo (Histórico)" is never displayed. Every path that
  does not use a station ends with the label "Open-Meteo (Estimado)".
- In `src/App.js`, the recommendation below 40 mm copies the component's
  initial state and replaces only the details. So the level stays
  "No Viable".

## Model

| member | source | states |
|---|---|---|
| Text.Split | main.js:113-114 | `split` on a character class yields one more field than there are separators, and no field contains a separator |
| Text.JoinSplit | main.js:177 | splitting a path on '.' and joining the parts again gives back the original text |
| Text.SplitJoin | main.js:177 | splitting a '.'-joined list of dot-free keys gives back exactly those keys |
| Text.SplitClass | main.js:113-114 | splitting on the class `[;,]` gives the same fields as splitting on `;` after every `,` is written as `;`, so the one-separator laws fix the cells a CSV line yields |
| Text.JoinSplitClass | main.js:113-114 | the fields of a class split, joined with one separator, are the line with every separator written as that one: the fields hold exactly the text between separators |
| Text.Trim | main.js:113 | the result is a contiguous part of the input with only whitespace outside it and no whitespace at either of its ends; an input without whitespace at its ends is unchanged |
| Text.TrimUnique | main.js:113 | those properties pick out a single string, so they fix what `trim` returns |
| Text.Lower | main.js:114 | lower-casing maps exactly the ASCII capitals and keeps the length |
| Text.RemoveAll | main.js:114 | removing the quote characters leaves none of them and adds nothing; a quote-free text is unchanged and a lone quote vanishes |
| Text.RemoveAllAppend | main.js:114 | removal works piece by piece over concatenation, so with the one-character cases every other character is kept, in order |
| Text.StripOuterQuotes | main.js:131 | a cell wrapped in double quotes loses exactly the outer pair; a cell with a quote on one side only loses that quote; an unquoted cell is unchanged |
| Text.IndexOf | main.js:120-121 | `indexOf` is -1 exactly when the header is absent, and otherwise the first position holding it |
| Json.IndexRoundTrip | main.js:182 | the canonical decimal key of an array index reads back as that index |
| Json.Property | main.js:182 | a property read on an object is defined exactly for its own keys; it is undefined on null, booleans and numbers |
| Json.ArrayElementByKey | main.js:182 | reading an array at the decimal key of an index yields that element |
| Sums.SumAppend | main.js:192 | an array sum splits over concatenation |
| Sums.SumOrZeroAppend | main.js:286 | the sum with nulls read as 0 splits over concatenation |
| Sums.SumOrZeroIsSumOfPresent | main.js:286 | the sum with nulls read as 0 equals the plain sum of the values with every null replaced by 0 |
| Sums.SumOrZeroNonNegative | main.js:286 | non-negative entries give a non-negative total |
| Sums.SumOrZeroAllNull | main.js:286 | a series of nulls only sums to 0 |
| RainSeries.Dedup | main.js:145-151 | dedup keeps one record per timestamp, loses no timestamp, and invents no record |
| RainSeries.DedupKeepsFirst | main.js:146-150 | each kept record is the first one with its timestamp in input order |
| RainSeries.LaterDuplicateDiscarded | main.js:149 | a later record whose timestamp is already present does not change the dedup result |
| RainSeries.DedupOfDistinct | main.js:145-151 | records with distinct timestamps pass dedup unchanged |
| RainSeries.Insert | main.js:154 | insertion adds exactly the new record to the multiset |
| RainSeries.InsertSorted | main.js:154 | inserting into a chronological list keeps it chronological |
| RainSeries.Sort | main.js:154 | sorting is a permutation of its input |
| RainSeries.SortSorted | main.js:154 | the sort result is in non-decreasing time order |
| RainSeries.SortAscending | main.js:154 | after dedup the sort result is strictly increasing in time |
| RainSeries.AscendingUnique | main.js:154 | two strictly increasing lists with the same records are equal, so the sorted order does not depend on the input order |
| RainSeries.Integrate | main.js:157-171 | the integration loop computes the reference integral: each record after the first adds its rate times the hours since the previous record, skipping gaps over 24 h and negative steps |
| RainSeries.IntegralNonNegative | main.js:157-171 | non-negative rates integrate to a non-negative total |
| RainSeries.IntegralSplitsAtGap | main.js:166 | a gap longer than 24 h cuts the series into independently integrated parts |
| RainSeries.FirstRateIgnored | main.js:157-170 | the first record's rate never enters the total |
| RainSeries.OneHourAtTwo | main.js:162-170 | two records one hour apart with rate 2.0 integrate to 2.0 |
| RainSeries.ThirtyHourGap | main.js:166 | a 30-hour gap contributes nothing |
| RainSeries.ExactlyOneDay | main.js:166 | a gap of exactly 24 h is still integrated |
| RainSeries.LaterDuplicateIgnored | main.js:145-171 | appending a record with an already-seen timestamp does not change the station total |
| RainSeries.SeriesTotalOrderIndependent | main.js:145-171 | inputs whose deduplicated records agree give the same total, whatever their order |
| RainSeries.PermutationInvariant | main.js:153-171 | reordering records with distinct timestamps does not change the total |
| StationCsv.HeaderCell | main.js:114 | a normalised header holds no ASCII capital and no quote character; a header already in that shape with no outer whitespace is unchanged |
| StationCsv.QuotedHeaderExample | main.js:114 | the header `"DateUTC"` reads as `dateutc` |
| StationCsv.SpacedHeaderExample | main.js:114 | the header ` rainRateIn ` reads as `rainratein` |
| StationCsv.SpaceInsideQuotesKept | main.js:114 | quotes are removed after trimming, so `" dateutc"` keeps its inner space and no longer names the date column |
| StationCsv.ReadRow | main.js:131-142 | given a data row's cells: a row too short for the rain column is skipped; a row long enough for the rain column but not for the date column aborts the read; a row is kept exactly with the parsed date and rate of its cells when both parses succeed |
| StationCsv.ReadRows | main.js:130-143 | the parse loop over the rows' cells fails exactly when some row aborts, and never yields more records than rows |
| StationCsv.CsvTotal | main.js:112-171 | a missing date or rain column gives 0; the read fails exactly when both columns exist and some data row (after the header line) aborts at those columns' positions; otherwise the result is the series total of the records of the kept rows, in row order |
| StationCsv.ReadRowsKept | main.js:130-143 | when no row aborts, the parse loop yields exactly the records of the kept rows, in row order |
| StationCsv.KeptPermutation | main.js:130-143 | reordering the data rows reorders their kept records the same way |
| StationCsv.RowOrderIrrelevant | main.js:130-171 | when the kept rows carry distinct timestamps, the order of the data rows does not change the station total |
| StationCsv.RepeatedTimestampRowIgnored | main.js:145-171 | a later row that repeats a kept timestamp does not change the station total |
| StationCsv.SkippedRowIgnored | main.js:132 | a skipped row leaves the parsed records unchanged |
| StationCsv.KeptRowAppended | main.js:140-142 | a parsed row appends exactly its record |
| StationCsv.UppercaseMappingReadsZero | main.js:114-126 | a rain-column mapping with an upper-case letter never matches the lower-cased headers, so the station reads 0 |
| StationJson.PathKeys | main.js:176-177 | the path has at least one key and no key contains '.' |
| StationJson.Walk | main.js:180-188 | the walk stops with null as soon as the current value is falsy or lacks the next key, and otherwise steps into the value under that key and walks on |
| StationJson.ElementValue | main.js:192 | one element read through `Number` with NaN as 0: a number counts as itself, `true` as 1, null and false as 0, and a string as the number it spells or 0 when it spells none |
| StationJson.Reduce | main.js:190-195 | a number is the total; an empty array totals 0; anything but an array or a number reads 0 |
| StationJson.SingletonArray | main.js:191-192 | a one-element array totals that element's value |
| StationJson.ArrayTotal | main.js:191-192 | an array totals its first element's value plus the total of the rest, so every array totals the sum of its elements' values |
| StationJson.JsonTotal | main.js:174-195 | a JSON station fails exactly when its text does not parse; otherwise it reads the walked value as an array sum, a number or 0 |
| StationJson.WalkObjectPath | main.js:180-188 | walking a path through objects that hold each key along it, whatever other fields they have, reaches the value at its end |
| StationJson.WalkNest | main.js:180-188 | walking a path through the objects nested along it reaches the leaf |
| StationJson.DottedPathReachesLeaf | main.js:176-195 | a dotted mapping reads the value stored under the keys it names, in any document whose objects hold those keys |
| StationJson.MissingKeyReadsZero | main.js:184-186 | a key missing from an object ends the walk and the station reads 0 |
| StationJson.ArraySumAppend | main.js:192 | the array total splits over concatenation of the array |
| StationJson.DailyRainExample | main.js:176-192 | `{"daily":{"rain":[1,2,null,4]}}` reads 7 with the default mapping and with "daily.rain" |
| StationFetch.StationRain | main.js:96-203 | a missing payload is a failure (null); a present payload is read by the CSV reader when the format is 'csv' and by the JSON reader otherwise; a CSV station without its columns reads 0 |
| StationFetch.NullMeansFailure | main.js:96-203 | a station reads null exactly when its payload is missing, its JSON does not parse, or its CSV has both columns and a row that aborts the read |
| Forecast.At | main.js:327-328 | reading past the end of a series gives undefined |
| Forecast.ForecastCells | main.js:324-331 | at most five day cells, each pairing a day with the rain and probability at the same index |
| Recommendation.Classify | main.js:276-321 | Perfecta exactly when the total meets PERFECT; Optima exactly when it misses PERFECT and meets OPTIMAL; No Viable exactly when it meets none; Favorable only with enough follow-up rain; Arriesgada quotes the shortfall; the caution and risk notes appear exactly when follow-up rain is short |
| Recommendation.FirstMet | main.js:294-318 | the first threshold met in table order: every earlier one is missed |
| Recommendation.ClassifyIsFirstMatch | main.js:294-318 | the engine equals first-match evaluation of the ordered rule table, for any threshold values, ordered or not |
| Recommendation.FirstMetAntitone | main.js:294-318 | a larger total never matches a later rule |
| Recommendation.MonotoneInTotal | main.js:294-318 | more accumulated rain never lowers the level |
| Recommendation.MonotoneInFollowUp | main.js:286-311 | more forecast rain never lowers the level |
| Recommendation.DowngradeLaw | main.js:304-311 | in the MINIMUM band the level is Favorable exactly when the follow-up reaches the configured amount, and Arriesgada otherwise |
| Recommendation.NonNumericFollowUpAlwaysShort | main.js:279-287 | a non-numeric follow-up setting never compares true, so Favorable is never reached |
| Recommendation.DowngradeExample | main.js:304-311 | thresholds 40/70/90, 50 mm and the default 5 mm: 6.0 mm forecast is Favorable, 4.9 mm is Arriesgada |
| Recommendation.BoundaryIsInclusive | main.js:294-304 | a total exactly on OPTIMAL or PERFECT takes that level |
| Dashboard.SourceLabel | main.js:253-259 | a station history is labelled with the station's name; the forecast service's history is labelled "Open-Meteo (Estimado)" |
| Dashboard.Comparable | main.js:294-304 | a numeric threshold compares as itself, null as 0, a boolean as 1 or 0, a string as the number it spells (never matching when it spells none), and a missing one never matches |
| Dashboard.SettingOf | main.js:277-278 | 0, null, false, the empty string and a missing value fall back to the default; a non-zero number and `true` (as 1) are kept; a numeric string reads as its number; a non-numeric string is kept but is NaN to comparisons |
| Dashboard.DefaultSettings | config.js:7-17 | the default configuration classifies against 90 / 70 / 40 with a 5 mm follow-up over 7 days |
| Dashboard.Selection | main.js:235 | a station is selected exactly when SELECTED_STATION_ID is present and truthy |
| Dashboard.FindStation | main.js:236 | `find` returns the first station whose id strictly equals the selection, and nothing exactly when none does |
| Dashboard.ApiHistory | main.js:245-249 | the forecast service's history is the past-day sum with nulls as 0, and fails when that request fails |
| Dashboard.ResolveHistory | main.js:233-259 | with no selection the forecast service's history is used; a selection while STATIONS is not a list fails; a station-labelled history is the found station's own reading |
| Dashboard.Refresh | main.js:221-265 | for a configuration as `ConfigManager.get` returns it, the error panel shows exactly when the forecast fails, the history fails, a shown day lacks a rain figure, or LATITUDE or LONGITUDE is not a number (`toFixed` throws); otherwise the panel shows the resolved history and its label, classified by the rule engine against the configured thresholds, the coordinates, and as its days exactly the forecast cells rendered at main.js:324-331 |
| Dashboard.DefaultLocationPrintable | main.js:352 | the shipped coordinates are numbers, so printing them does not throw |
| Dashboard.TextLatitudeShowsError | main.js:352 | a LATITUDE saved as text turns every refresh into the error panel |
| Dashboard.AnsweringStationPreferred | main.js:236-241 | a station that answers is used, even when it reads 0 mm |
| Dashboard.FailingStationFallsBack | main.js:240-249 | a failing station falls back to the forecast service's past days |
| Dashboard.UnknownStationUsesApi | main.js:235-249 | a selection that names no station uses the forecast service |
| Dashboard.ApiLabelMeansApiTotal | main.js:245-259 | a history labelled as estimated is the forecast service's sum |
| Dashboard.FallbackExample | main.js:248 | past days 10, null, 20, 15 give 45 mm |
| LegacyDashboard.Slice | src/App.js:74-80 | `slice` with bounds clamped to the length yields the elements from the lower bound on |
| LegacyDashboard.FirstRainDayFrom | src/App.js:82-88 | the first window day with more than 1 mm and more than 30 % probability, with every earlier day failing the test; -1 exactly when there is none |
| LegacyDashboard.FindNextRainDay | src/App.js:82-88 | the search loop with its early exit finds that first rain day |
| LegacyDashboard.DaysToNextRain | src/App.js:89 | 99 when there is no rain day; otherwise the one-based day number of a rain day with no rain day before it |
| LegacyDashboard.LegacyRecommend | src/App.js:92-112 | fixed 90 / 70 / 40 bands; the caution above 90 when the next rain is over 7 days away; the risk note above 70 when it is over 10 days away; Favorable exactly when rain comes within 5 days; below 40 the prior level is kept |
| LegacyDashboard.ProcessAndRecommend | src/App.js:54-121 | a failed load shows the error; a shown day without rain crashes the render; otherwise the total of the first seven days is classified with the days to the next rain in days 7 to 13 |
| LegacyDashboard.DaysToNextRainRange | src/App.js:78-89 | the days to the next rain are 1 to 7 or 99 |
| LegacyDashboard.FollowUpNoteIffNoRainDay | src/App.js:93-100 | above 70 mm the caution or risk note appears exactly when the window has no rain day |
| LegacyDashboard.BelowMinimumStaysNoViable | src/App.js:37-44 | below 40 mm the level is No Viable, because the copied initial state keeps its level |
| LegacyDashboard.FavorableIffRainWithinFiveDays | src/App.js:101-109 | between 40 and 70 mm the level is Favorable exactly when one of the first five window days is a rain day |
| Config.Spread | config.js:33-36 | spreading an object copies its fields; spreading null, undefined, a number or a boolean adds nothing; an array or string adds only index keys |
| Config.SpreadMatchesProperty | config.js:34-36 | every spread key reads back as the same value through property access |
| Config.MergeGroups | config.js:35-36 | in a merged group, saved members win and the other default members remain |
| Config.Merge | config.js:32-37 | the merge holds every key of both sides; saved keys win; the two groups are merged member by member |
| Config.Get | config.js:25-44 | nothing stored, an empty item, unparseable text or a stored null give the defaults; the result always holds every default key and group member |
| Config.Save | config.js:50-59 | the stored item is the text of the current configuration merged with the update |
| Config.MergeKeepsDefaults | config.js:53-58 | a merge keeps every default key and group member in place |
| Config.MergeDefaultsUnder | config.js:32-37 | merging the defaults under a configuration that already has them changes nothing |
| Config.MergeIdempotent | config.js:53-58 | merging the same update twice equals merging it once |
| Config.SaveThenGet | config.js:25-59 | after save, get returns the previous configuration merged with the update, given that the stored object survives JSON text conversion |
| Config.SaveIdempotent | config.js:50-59 | saving the same update twice leaves the same stored item as saving it once, given that the stored object survives JSON text conversion |
| Config.SaveOverridesAndKeeps | config.js:53-55 | after save, a key in the update reads as its new value and any other key keeps its previous value, given that the stored object survives JSON text conversion |
| Config.GetReadsTopLevel | config.js:32-34 | a top-level key of a stored blob comes from the blob when the blob has it (an object's field, or an array's or string's index) and from the defaults otherwise |
| Config.GetReadsGroupMember | config.js:35-36 | a group member of a stored blob comes from the blob when present, otherwise from the defaults |
| Config.PartialThresholdsFilled | config.js:29-36 | a stored `{"THRESHOLDS":{"PERFECT":80}}` reads as thresholds 80 / 70 / 40 |
| Config.NonObjectGroupIgnored | config.js:35 | a stored group that is a number is ignored in favour of the default group |
| Config.DefaultThresholdsOrdered | config.js:7-11 | the shipped thresholds satisfy MINIMUM < OPTIMAL < PERFECT |

## Left out

- **Network I/O.** The relay request, the single direct retry, the
  `{startDate}`/`{endDate}` URL substitution and the response status checks
  are not modelled. The text a station returned is an input
  (`payloadOf`), and `None` stands for "no successful answer". The forecast
  and past-days answers are inputs in the same way.
- **Concurrency.** `Promise.all` is not modelled. The two requests are
  independent inputs, and either failure rejects the whole refresh.
- **Event wiring.** The `DOMContentLoaded` and `configChanged` events, and
  `window.dispatchEvent` in `save`, are left out. They are event wiring, not
  logic.
- **Rendering.** HTML rendering, colours, icons and message wording are left
  out. A recommendation carries the numbers its message quotes. Number
  formatting with `toFixed` and dates with `toLocaleDateString` are left out
  too. Two render effects are kept: the throw on a missing rain figure, and
  the throw of `toFixed` on coordinates that are not numbers.
- **Primitive parsers.** Date parsing, `parseFloat`, `Number(string)`,
  `JSON.parse` and `JSON.stringify` are parameters, not models. The
  save-then-get laws assume that the one object being stored comes back
  from its text unchanged.
- **Floating point.** Rain values are exact reals: there is no rounding and
  no NaN. A NaN or missing number is `None`.
- **Unicode case mapping.** `toLowerCase` is modelled for ASCII letters only.
- **String length.** Strings are sequences of Unicode code points, so
  `length` and string indices, as the path walk and the spread of a stored
  string see them, differ from JavaScript's UTF-16 code units for characters
  outside the Basic Multilingual Plane.
- StationJson.ElementValue: an array element that is itself an array counts
  0, whereas `Number([5])` is 5 in the source.
- Dashboard.Comparable: a threshold stored as an array never matches,
  whereas JavaScript compares `[]` as 0 and `[x]` as `x`.
- Dashboard.SettingOf: an array setting reads as NaN, with the same caveat.
- **Path-walk keys.** Inherited JavaScript properties (such as
  `constructor`) are not visible to the path walk. Only own keys, array and
  string indices, and `length` are.
- **STATIONS decoding.** The list of configured stations is passed in
  already decoded. `None` means STATIONS is not an array. The `lat`/`lng`
  fields are only used by the map and are not modelled. A station's `url`
  is always a string here; in the source a station without a string `url`
  throws in `url.replace` before the `try`, which rejects the whole refresh
  rather than reading null and falling back to the forecast service.
- **Out-of-scope files.** `api/proxy.js`, `local-server.js`, `stations.js`
  and `settings.js` (the relay, the development server, the station editor
  and the settings modal) are not part of this model. Neither are
  `src/index.js` and `tailwind.config.cjs` (bootstrapping and styling).
- **Historical table.** The historical table and the soil card of
  `src/App.js` are static data and are not modelled.
- **Legacy loading spinner.** `LegacyDashboard.ProcessAndRecommend` models
  the settled state only, not the loading spinner.

=== FILE: config.dfy ===
/** The configuration store: defaults merged with a saved JSON blob, two
    levels deep for the THRESHOLDS and FORECAST_CRITERIA groups. Storage is
    the single optional string kept under `appConfig`; JSON text conversion is
    an abstract pair of functions supplied by the caller. */
module Config {
  import opened Wrappers
  import opened Json

  /** A JavaScript object as the configuration sees it. */
  type Object = map<string, Json>

  const LatitudeKey: string := "LATITUDE"
  const LongitudeKey: string := "LONGITUDE"
  const ThresholdsKey: string := "THRESHOLDS"
  const CriteriaKey: string := "FORECAST_CRITERIA"

  const DefaultThresholds: Object := map[
    "PERFECT" := JNumber(90.0),
    "OPTIMAL" := JNumber(70.0),
    "MINIMUM" := JNumber(40.0)]

  const DefaultCriteria: Object := map[
    "MIN_RAIN_MM" := JNumber(1.0),
    "MIN_PROBABILITY_PERCENT" := JNumber(30.0),
    "FORECAST_DAYS" := JNumber(7.0),
    "MIN_FOLLOW_UP_RAIN" := JNumber(5.0)]

  const DefaultConfig: Object := map[
    LatitudeKey := JNumber(38.27),
    LongitudeKey := JNumber(-0.70),
    "TIMEZONE" := JString("Europe/Madrid"),
    ThresholdsKey := JObject(DefaultThresholds),
    CriteriaKey := JObject(DefaultCriteria)]

  /** The keys "0" .. "n-1". */
  function IndexKeys(n: nat): (ks: set<string>)
    ensures forall k :: k in ks ==> CanonicalIndex(k).Some? && CanonicalIndex(k).value < n
  {
    var ks := set i | 0 <= i < n :: NatToString(i);
    assert forall k :: k in ks ==> CanonicalIndex(k).Some? && CanonicalIndex(k).value < n by {
      forall k | k in ks ensures CanonicalIndex(k).Some? && CanonicalIndex(k).value < n {
        var i :| 0 <= i < n && NatToString(i) == k;
        IndexRoundTrip(i);
      }
    }
    ks
  }

  /** `{...array}`: one key per index. */
  function IndexedItems(items: seq<Json>): (o: Object)
    ensures o.Keys == IndexKeys(|items|)
  {
    map k | k in IndexKeys(|items|) :: items[CanonicalIndex(k).value]
  }

  /** `{...string}`: one key per character. */
  function IndexedChars(s: string): (o: Object)
    ensures o.Keys == IndexKeys(|s|)
  {
    map k | k in IndexKeys(|s|) :: JString([s[CanonicalIndex(k).value]])
  }

  /** `{...v}`: an object's own fields, the index keys of an array or a
      string, and nothing for `undefined`, `null`, numbers and booleans. */
  function Spread(v: Option<Json>): (o: Object)
    ensures v.Some? && v.value.JObject? ==> o == v.value.fields
    ensures v.None? || v.value.JNull? || v.value.JBool? || v.value.JNumber? ==> o == map[]
    ensures v.Some? && (v.value.JArray? || v.value.JString?) ==> forall k :: k in o ==> CanonicalIndex(k).Some?
  {
    match v
    case Some(JObject(m)) => m
    case Some(JArray(items)) => IndexedItems(items)
    case Some(JString(s)) => IndexedChars(s)
    case _ => map[]
  }

  /** Every spread key reads back through a property lookup on the spread value. */
  lemma SpreadMatchesProperty(v: Json, k: string)
    requires k in Spread(Some(v))
    ensures Property(v, k) == Some(Spread(Some(v))[k])
  {
    match v
    case JObject(m) =>
    case JArray(items) =>
      var i := IndexOfKey(|items|, k);
      ArrayElementByKey(items, i);
    case JString(s) =>
      var i := IndexOfKey(|s|, k);
      StringElementByKey(s, i);
  }

  /** An index key is the decimal spelling of its index. */
  lemma IndexOfKey(n: nat, k: string) returns (i: nat)
    requires k in IndexKeys(n)
    ensures i < n && k == NatToString(i) && CanonicalIndex(k) == Some(i)
  {
    var j :| 0 <= j < n && NatToString(j) == k;
    IndexRoundTrip(j);
    i := j;
  }

  lemma StringElementByKey(s: string, i: nat)
    requires i < |s|
    ensures Property(JString(s), NatToString(i)) == Some(JString([s[i]]))
  {
    IndexRoundTrip(i);
    assert NatToString(i) != "length" by {
      assert CanonicalIndex("length").None?;
    }
  }

  /** The fields of the group stored under `key`, spread. */
  function Group(cfg: Object, key: string): Object {
    Spread(if key in cfg then Some(cfg[key]) else None)
  }

  /** The second-level merge of one group: members of `over` win, the rest come from `base`. */
  function MergeGroups(base: Object, over: Object, g: string): (r: Object)
    ensures r.Keys == Group(base, g).Keys + Group(over, g).Keys
    ensures forall k :: k in Group(over, g) ==> r[k] == Group(over, g)[k]
    ensures forall k :: k in Group(base, g) && k !in Group(over, g) ==> r[k] == Group(base, g)[k]
  {
    Group(base, g) + Group(over, g)
  }

  /** `{...base, ...over, THRESHOLDS: {...base.THRESHOLDS, ...over.THRESHOLDS},
      FORECAST_CRITERIA: {...}}`: the two-level merge both `get` and `save` perform. */
  function Merge(base: Object, over: Object): (r: Object)
    ensures r.Keys == base.Keys + over.Keys + {ThresholdsKey, CriteriaKey}
    ensures forall k :: k in over && k != ThresholdsKey && k != CriteriaKey ==> r[k] == over[k]
    ensures forall k :: k in base && k !in over && k != ThresholdsKey && k != CriteriaKey ==> r[k] == base[k]
    ensures r[ThresholdsKey] == JObject(MergeGroups(base, over, ThresholdsKey))
    ensures r[CriteriaKey] == JObject(MergeGroups(base, over, CriteriaKey))
  {
    base + over + map[
      ThresholdsKey := JObject(MergeGroups(base, over, ThresholdsKey)),
      CriteriaKey := JObject(MergeGroups(base, over, CriteriaKey))]
  }

  /** `ConfigManager.get` on the stored item (None when nothing is stored),
      with `JSON.parse` given as `parse` (None when it throws). An empty
      item, unparseable text and `null` (whose property read throws) give
      the defaults. */
  function Get(item: Option<string>, parse: string -> Option<Json>): (cfg: Object)
    ensures item.None? || item.value == "" ==> cfg == DefaultConfig
    ensures item.Some? && item.value != "" && (parse(item.value).None? || parse(item.value).value.JNull?) ==>
      cfg == DefaultConfig
    ensures HasDefaults(cfg)
  {
    match item
    case None => DefaultConfig
    case Some(text) =>
      if text == "" then DefaultConfig
      else
        match parse(text)
        case None => DefaultConfig
        case Some(JNull) => DefaultConfig
        case Some(parsed) => Merge(DefaultConfig, Spread(Some(parsed)))
  }

  /** Every default key is present, and each group holds every default sub-key. */
  predicate HasDefaults(cfg: Object) {
    && DefaultConfig.Keys <= cfg.Keys
    && cfg[ThresholdsKey].JObject? && DefaultThresholds.Keys <= cfg[ThresholdsKey].fields.Keys
    && cfg[CriteriaKey].JObject? && DefaultCriteria.Keys <= cfg[CriteriaKey].fields.Keys
  }

  /** `ConfigManager.save(newConfig)`: the item left in storage, given
      `JSON.stringify` as `stringify`. */
  function Save(item: Option<string>, newConfig: Object, parse: string -> Option<Json>, stringify: Json -> string): (stored: Option<string>)
    ensures stored.Some?
    ensures stored.value == stringify(JObject(Merge(Get(item, parse), newConfig)))
  {
    Some(stringify(JObject(Merge(Get(item, parse), newConfig))))
  }

  /** A merge keeps the defaults in place. */
  lemma MergeKeepsDefaults(base: Object, over: Object)
    requires HasDefaults(base)
    ensures HasDefaults(Merge(base, over))
  {
  }

  /** Merging the defaults under a configuration that already has them is
      the identity. */
  lemma MergeDefaultsUnder(cfg: Object)
    requires HasDefaults(cfg)
    ensures Merge(DefaultConfig, cfg) == cfg
  {
    var r := Merge(DefaultConfig, cfg);
    assert Group(DefaultConfig, ThresholdsKey) == DefaultThresholds;
    assert Group(DefaultConfig, CriteriaKey) == DefaultCriteria;
    assert r[ThresholdsKey] == cfg[ThresholdsKey];
    assert r[CriteriaKey] == cfg[CriteriaKey];
    assert r.Keys == cfg.Keys;
  }

  /** Merging the same update twice is merging it once. */
  lemma MergeIdempotent(cfg: Object, update: Object)
    ensures Merge(Merge(cfg, update), update) == Merge(cfg, update)
  {
    var once := Merge(cfg, update);
    var twice := Merge(once, update);
    GroupMergeIdempotent(cfg, update, ThresholdsKey);
    GroupMergeIdempotent(cfg, update, CriteriaKey);
    assert twice.Keys == once.Keys;
    forall k | k in once ensures twice[k] == once[k] {
    }
  }

  lemma GroupMergeIdempotent(cfg: Object, update: Object, g: string)
    requires g == ThresholdsKey || g == CriteriaKey
    ensures MergeGroups(Merge(cfg, update), update, g) == MergeGroups(cfg, update, g)
  {
    var once := Merge(cfg, update);
    assert Group(once, g) == MergeGroups(cfg, update, g);
  }

  /** `JSON.stringify` writes `v` as non-empty text that `JSON.parse` reads
      back as `v`. */
  predicate RoundTrips(v: Json, parse: string -> Option<Json>, stringify: Json -> string) {
    stringify(v) != "" && parse(stringify(v)) == Some(v)
  }

  /** A saved item reads back as the current configuration merged with the
      update, provided the stored object survives JSON text conversion. */
  lemma SaveThenGet(item: Option<string>, newConfig: Object, parse: string -> Option<Json>, stringify: Json -> string)
    requires RoundTrips(JObject(Merge(Get(item, parse), newConfig)), parse, stringify)
    ensures Get(Save(item, newConfig, parse, stringify), parse) == Merge(Get(item, parse), newConfig)
  {
    var updated := Merge(Get(item, parse), newConfig);
    MergeKeepsDefaults(Get(item, parse), newConfig);
    MergeDefaultsUnder(updated);
    assert parse(stringify(JObject(updated))) == Some(JObject(updated));
  }

  /** Saving the same update twice stores the same item as saving it once. */
  lemma SaveIdempotent(item: Option<string>, newConfig: Object, parse: string -> Option<Json>, stringify: Json -> string)
    requires RoundTrips(JObject(Merge(Get(item, parse), newConfig)), parse, stringify)
    ensures Save(Save(item, newConfig, parse, stringify), newConfig, parse, stringify) == Save(item, newConfig, parse, stringify)
  {
    SaveThenGet(item, newConfig, parse, stringify);
    MergeIdempotent(Get(item, parse), newConfig);
  }

  /** A saved value wins; keys the update does not mention keep their value. */
  lemma SaveOverridesAndKeeps(item: Option<string>, newConfig: Object, k: string, parse: string -> Option<Json>, stringify: Json -> string)
    requires RoundTrips(JObject(Merge(Get(item, parse), newConfig)), parse, stringify)
    requires k != ThresholdsKey && k != CriteriaKey
    requires k in newConfig || k in Get(item, parse)
    ensures k in newConfig ==> Get(Save(item, newConfig, parse, stringify), parse)[k] == newConfig[k]
    ensures k !in newConfig ==> Get(Save(item, newConfig, parse, stringify), parse)[k] == Get(item, parse)[k]
  {
    SaveThenGet(item, newConfig, parse, stringify);
  }

  /** The default group stored under `g`. */
  function DefaultGroup(g: string): Object {
    if g == ThresholdsKey then DefaultThresholds else DefaultCriteria
  }

  /** A group member of a stored object blob is read from the blob when it is
      there and from the defaults otherwise. */
  lemma GetReadsGroupMember(text: string, parse: string -> Option<Json>, g: string, k: string)
    requires text != ""
    requires parse(text).Some? && parse(text).value.JObject?
    requires g == ThresholdsKey || g == CriteriaKey
    requires k in DefaultGroup(g) || k in Group(parse(text).value.fields, g)
    ensures Get(Some(text), parse)[g].JObject? && k in Get(Some(text), parse)[g].fields
    ensures k in Group(parse(text).value.fields, g) ==>
      Get(Some(text), parse)[g].fields[k] == Group(parse(text).value.fields, g)[k]
    ensures k !in Group(parse(text).value.fields, g) ==>
      Get(Some(text), parse)[g].fields[k] == DefaultGroup(g)[k]
  {
    assert Group(DefaultConfig, g) == DefaultGroup(g);
  }

  /** A top-level key of a stored blob is read from the blob when the blob
      spreads it (an object's own field, an array's or a string's index) and
      from the defaults otherwise. */
  lemma GetReadsTopLevel(text: string, parse: string -> Option<Json>, k: string)
    requires text != ""
    requires parse(text).Some? && !parse(text).value.JNull?
    requires k != ThresholdsKey && k != CriteriaKey
    ensures k in Get(Some(text), parse) <==> k in Spread(parse(text)) || k in DefaultConfig
    ensures k in Spread(parse(text)) ==> Get(Some(text), parse)[k] == Spread(parse(text))[k]
    ensures k !in Spread(parse(text)) && k in DefaultConfig ==> Get(Some(text), parse)[k] == DefaultConfig[k]
    ensures parse(text).value.JObject? && k in parse(text).value.fields ==>
      Get(Some(text), parse)[k] == parse(text).value.fields[k]
  {
  }

  /** A blob saved by an older version without a group member gets it from
      the defaults: a stored `{"THRESHOLDS": {"PERFECT": 80}}` reads as
      thresholds 80 / 70 / 40. */
  lemma PartialThresholdsFilled(text: string, parse: string -> Option<Json>)
    requires text != ""
    requires parse(text) == Some(JObject(map[ThresholdsKey := JObject(map["PERFECT" := JNumber(80.0)])]))
    ensures Get(Some(text), parse)[ThresholdsKey].fields["PERFECT"] == JNumber(80.0)
    ensures Get(Some(text), parse)[ThresholdsKey].fields["OPTIMAL"] == JNumber(70.0)
    ensures Get(Some(text), parse)[ThresholdsKey].fields["MINIMUM"] == JNumber(40.0)
  {
    var over := map[ThresholdsKey := JObject(map["PERFECT" := JNumber(80.0)])];
    assert Group(over, ThresholdsKey) == map["PERFECT" := JNumber(80.0)];
    GetReadsGroupMember(text, parse, ThresholdsKey, "PERFECT");
    GetReadsGroupMember(text, parse, ThresholdsKey, "OPTIMAL");
    GetReadsGroupMember(text, parse, ThresholdsKey, "MINIMUM");
  }

  /** A stored group that is not an object (here a number) is ignored in
      favour of the default group. */
  lemma NonObjectGroupIgnored(text: string, n: real, parse: string -> Option<Json>)
    requires text != ""
    requires parse(text) == Some(JObject(map[ThresholdsKey := JNumber(n)]))
    ensures Get(Some(text), parse)[ThresholdsKey] == JObject(DefaultThresholds)
  {
    var over := map[ThresholdsKey := JNumber(n)];
    assert Group(over, ThresholdsKey) == map[];
    assert Group(DefaultConfig, ThresholdsKey) == DefaultThresholds;
    assert DefaultThresholds + map[] == DefaultThresholds;
  }

  /** The shipped thresholds are ordered minimum < optimal < perfect. */
  lemma DefaultThresholdsOrdered()
    ensures DefaultThresholds["MINIMUM"].n < DefaultThresholds["OPTIMAL"].n < DefaultThresholds["PERFECT"].n
  {
  }
}

=== FILE: dashboard.dfy ===
/** One refresh of the live dashboard: the configuration is read, the
    seven-day history comes from the selected station when it answers and
    from the forecast service's past days otherwise, and the rule engine
    classifies it against the forecast. The two network answers are inputs:
    `forecast` is None when the forecast request or its JSON failed (or the
    daily arrays are missing), `apiHistory` is the past-days precipitation
    series (None on failure), and `payloadOf` is what the station request
    returned. Any failure, and any thrown error while rendering, ends in the
    error panel. */
module Dashboard {
  import opened Wrappers
  import opened Json
  import Sums
  import Config
  import Forecast
  import StationFetch
  import Recommendation

  /** Label shown when the history comes from the forecast service. */
  const ApiLabel: string := "Open-Meteo (Estimado)"

  const SelectedStationKey: string := "SELECTED_STATION_ID"

  datatype Source = StationSource(name: string) | ApiSource

  function SourceLabel(s: Source): (shown: string)
    ensures s.StationSource? ==> shown == s.name
    ensures s.ApiSource? ==> shown == ApiLabel
  {
    match s
    case StationSource(name) => name
    case ApiSource => ApiLabel
  }

  /** The number a `>=` comparison against a configured value sees; None when
      every comparison is false (`undefined`, NaN). `number` is `Number(s)`
      on a string, None for NaN. */
  function Comparable(v: Option<Json>, number: string -> Option<real>): (r: Option<real>)
    ensures v.Some? && v.value.JNumber? ==> r == Some(v.value.n)
    ensures v.Some? && v.value.JNull? ==> r == Some(0.0)
    ensures v.Some? && v.value.JBool? ==> r == Some(if v.value.b then 1.0 else 0.0)
    ensures v.Some? && v.value.JString? ==> r == number(v.value.s)
    ensures v.None? ==> r.None?
  {
    match v
    case None => None
    case Some(JNull) => Some(0.0)
    case Some(JBool(b)) => Some(if b then 1.0 else 0.0)
    case Some(JNumber(n)) => Some(n)
    case Some(JString(s)) => number(s)
    case Some(_) => None
  }

  /** A configured value seen through `value || default` and then `>=`. */
  function SettingOf(v: Option<Json>, number: string -> Option<real>): (s: Recommendation.Setting)
    ensures v.None? || v.value.JNull? ==> s.Unset?
    ensures v.Some? && v.value.JNumber? ==> (s.Unset? <==> v.value.n == 0.0)
    ensures v.Some? && v.value.JNumber? && v.value.n != 0.0 ==> s == Recommendation.Value(v.value.n)
    ensures v.Some? && v.value.JString? && v.value.s != "" && number(v.value.s).None? ==> s.NotANumber?
    ensures v == Some(JBool(true)) ==> s == Recommendation.Value(1.0)
    ensures v == Some(JBool(false)) || v == Some(JString("")) ==> s.Unset?
    ensures v.Some? && v.value.JString? && v.value.s != "" && number(v.value.s).Some? ==> s == Recommendation.Value(number(v.value.s).value)
  {
    match v
    case None => Recommendation.Unset
    case Some(JNull) => Recommendation.Unset
    case Some(JBool(b)) => if b then Recommendation.Value(1.0) else Recommendation.Unset
    case Some(JNumber(n)) => if n == 0.0 then Recommendation.Unset else Recommendation.Value(n)
    case Some(JString(s)) =>
      if s == "" then Recommendation.Unset
      else (match number(s)
            case Some(x) => Recommendation.Value(x)
            case None => Recommendation.NotANumber)
    case Some(_) => Recommendation.NotANumber
  }

  /** `config[group][key]`, None when absent. */
  function Member(cfg: Config.Object, group: string, key: string): (r: Option<Json>)
    ensures r.Some? <==> key in Config.Group(cfg, group)
  {
    var fields := Config.Group(cfg, group);
    if key in fields then Some(fields[key]) else None
  }

  function ThresholdsOf(cfg: Config.Object, number: string -> Option<real>): Recommendation.Thresholds {
    Recommendation.Thresholds(
      Comparable(Member(cfg, Config.ThresholdsKey, "PERFECT"), number),
      Comparable(Member(cfg, Config.ThresholdsKey, "OPTIMAL"), number),
      Comparable(Member(cfg, Config.ThresholdsKey, "MINIMUM"), number))
  }

  function CriteriaOf(cfg: Config.Object, number: string -> Option<real>): Recommendation.Criteria {
    Recommendation.Criteria(
      SettingOf(Member(cfg, Config.CriteriaKey, "FORECAST_DAYS"), number),
      SettingOf(Member(cfg, Config.CriteriaKey, "MIN_FOLLOW_UP_RAIN"), number))
  }

  /** The default configuration classifies against 90 / 70 / 40 and a 5 mm follow-up. */
  lemma DefaultSettings(number: string -> Option<real>)
    ensures ThresholdsOf(Config.DefaultConfig, number) ==
      Recommendation.Thresholds(Some(90.0), Some(70.0), Some(40.0))
    ensures Recommendation.MinFollowUp(CriteriaOf(Config.DefaultConfig, number)) == Some(5.0)
    ensures Recommendation.ForecastDaysCount(CriteriaOf(Config.DefaultConfig, number)) == Some(7.0)
  {
    assert Config.Group(Config.DefaultConfig, Config.ThresholdsKey) == Config.DefaultThresholds;
    assert Config.Group(Config.DefaultConfig, Config.CriteriaKey) == Config.DefaultCriteria;
  }

  /** `config.SELECTED_STATION_ID` when it is truthy. */
  function Selection(cfg: Config.Object): (sel: Option<Json>)
    ensures sel.Some? ==> SelectedStationKey in cfg && Truthy(sel.value) && sel.value == cfg[SelectedStationKey]
    ensures sel.None? ==> SelectedStationKey !in cfg || !Truthy(cfg[SelectedStationKey])
  {
    if SelectedStationKey in cfg && Truthy(cfg[SelectedStationKey]) then Some(cfg[SelectedStationKey]) else None
  }

  /** Station `i` is the first whose id is strictly equal to `id`. */
  predicate FirstMatchAt(stations: seq<StationFetch.Station>, id: Json, i: int) {
    && 0 <= i < |stations| && id == JString(stations[i].id)
    && forall j :: 0 <= j < i ==> id != JString(stations[j].id)
  }

  /** `stations.find(s => s.id === id)`: the first station whose id is
      strictly equal to the selection. */
  function FindStation(stations: seq<StationFetch.Station>, id: Json): (r: Option<StationFetch.Station>)
    ensures r.None? <==> forall i :: 0 <= i < |stations| ==> id != JString(stations[i].id)
    ensures r.Some? ==> exists i :: FirstMatchAt(stations, id, i) && stations[i] == r.value
  {
    if |stations| == 0 then None
    else if id == JString(stations[0].id) then Some(stations[0])
    else
      var r := FindStation(stations[1..], id);
      assert forall i :: 1 <= i < |stations| ==> stations[i] == stations[1..][i - 1];
      if r.Some? then
        ghost var i :| FirstMatchAt(stations[1..], id, i) && stations[1..][i] == r.value;
        assert FirstMatchAt(stations, id, i + 1);
        r
      else r
  }

  /** The seven-day history and where it came from. */
  datatype History = History(total: real, source: Source)

  /** The forecast service's past days summed with nulls as 0; None when that
      request failed. */
  function ApiHistory(apiHistory: Option<seq<Option<real>>>): (r: Option<History>)
    ensures r.None? <==> apiHistory.None?
    ensures r.Some? ==> r.value == History(Sums.SumOrZero(apiHistory.value), ApiSource)
  {
    match apiHistory
    case None => None
    case Some(series) => Some(History(Sums.SumOrZero(series), ApiSource))
  }

  /** The station reading when the selected station exists and answers with
      a number (0 included); the forecast service's past days otherwise.
      None is a thrown error: the service failed, or a station is selected
      while STATIONS is not a list (`stations` None). */
  function ResolveHistory(
    cfg: Config.Object,
    stations: Option<seq<StationFetch.Station>>,
    payloadOf: StationFetch.Station -> Option<string>,
    p: StationFetch.Parsers,
    apiHistory: Option<seq<Option<real>>>): (r: Option<History>)
    ensures Selection(cfg).None? ==> r == ApiHistory(apiHistory)
    ensures Selection(cfg).Some? && stations.None? ==> r.None?
    ensures r.Some? && r.value.source.StationSource? ==>
      && Selection(cfg).Some? && stations.Some?
      && FindStation(stations.value, Selection(cfg).value).Some?
      && r.value.source.name == FindStation(stations.value, Selection(cfg).value).value.name
      && Some(r.value.total) == StationFetch.StationRain(
           FindStation(stations.value, Selection(cfg).value).value,
           payloadOf(FindStation(stations.value, Selection(cfg).value).value), p)
  {
    match Selection(cfg)
    case None => ApiHistory(apiHistory)
    case Some(id) =>
      match stations
      case None => None
      case Some(list) =>
        match FindStation(list, id)
        case None => ApiHistory(apiHistory)
        case Some(station) =>
          match StationFetch.StationRain(station, payloadOf(station), p)
          case Some(rain) => Some(History(rain, StationSource(station.name)))
          case None => ApiHistory(apiHistory)
  }

  /** What the dashboard container ends up showing. */
  datatype View =
    | ErrorPanel
    | Panel(recommendation: Recommendation.Recommendation, source: string, sevenDayTotal: real,
            latitude: real, longitude: real, days: seq<Forecast.DayCell>)

  /** The panel prints `LATITUDE.toFixed(2)` and `LONGITUDE.toFixed(2)`; on
      anything but a number that call throws. */
  predicate LocationPrintable(cfg: Config.Object) {
    && Config.LatitudeKey in cfg && cfg[Config.LatitudeKey].JNumber?
    && Config.LongitudeKey in cfg && cfg[Config.LongitudeKey].JNumber?
  }

  /** `initLiveDashboard` followed by `processAndRecommend`, on the
      configuration `ConfigManager.get` returns. */
  function Refresh(
    cfg: Config.Object,
    stations: Option<seq<StationFetch.Station>>,
    payloadOf: StationFetch.Station -> Option<string>,
    p: StationFetch.Parsers,
    forecast: Option<Forecast.DailySeries>,
    apiHistory: Option<seq<Option<real>>>): (v: View)
    requires Config.HasDefaults(cfg)
    ensures v.ErrorPanel? <==>
      || forecast.None?
      || ResolveHistory(cfg, stations, payloadOf, p, apiHistory).None?
      || !Forecast.Renderable(Forecast.ForecastCells(forecast.value.time, forecast.value.precipitationSum, forecast.value.probabilityMean))
      || !LocationPrintable(cfg)
    ensures v.Panel? ==>
      && v.sevenDayTotal == ResolveHistory(cfg, stations, payloadOf, p, apiHistory).value.total
      && v.source == SourceLabel(ResolveHistory(cfg, stations, payloadOf, p, apiHistory).value.source)
      && v.recommendation == Recommendation.Classify(v.sevenDayTotal, forecast.value.precipitationSum,
           ThresholdsOf(cfg, p.json.number), CriteriaOf(cfg, p.json.number))
      && v.latitude == cfg[Config.LatitudeKey].n && v.longitude == cfg[Config.LongitudeKey].n
      && v.days == Forecast.ForecastCells(forecast.value.time, forecast.value.precipitationSum, forecast.value.probabilityMean)
      && |v.days| <= Forecast.ShownDays
  {
    match (forecast, ResolveHistory(cfg, stations, payloadOf, p, apiHistory))
    case (Some(series), Some(history)) =>
      var cells := Forecast.ForecastCells(series.time, series.precipitationSum, series.probabilityMean);
      if !Forecast.Renderable(cells) || !LocationPrintable(cfg) then ErrorPanel
      else
        var rec := Recommendation.Classify(history.total, series.precipitationSum,
          ThresholdsOf(cfg, p.json.number), CriteriaOf(cfg, p.json.number));
        Panel(rec, SourceLabel(history.source), history.total,
          cfg[Config.LatitudeKey].n, cfg[Config.LongitudeKey].n, cells)
    case _ => ErrorPanel
  }

  /** The shipped coordinates print. */
  lemma DefaultLocationPrintable()
    ensures LocationPrintable(Config.DefaultConfig)
  {
  }

  /** A LATITUDE saved as text turns every refresh into the error panel. */
  lemma TextLatitudeShowsError(
    cfg: Config.Object, stations: Option<seq<StationFetch.Station>>, payloadOf: StationFetch.Station -> Option<string>,
    p: StationFetch.Parsers, forecast: Option<Forecast.DailySeries>, apiHistory: Option<seq<Option<real>>>)
    requires Config.HasDefaults(cfg) && cfg[Config.LatitudeKey].JString?
    ensures Refresh(cfg, stations, payloadOf, p, forecast, apiHistory).ErrorPanel?
  {
  }

  /** A station that answers is always used, even when it reports 0 mm. */
  lemma AnsweringStationPreferred(
    cfg: Config.Object, list: seq<StationFetch.Station>, payloadOf: StationFetch.Station -> Option<string>,
    p: StationFetch.Parsers, apiHistory: Option<seq<Option<real>>>, station: StationFetch.Station, rain: real)
    requires Selection(cfg).Some?
    requires FindStation(list, Selection(cfg).value) == Some(station)
    requires StationFetch.StationRain(station, payloadOf(station), p) == Some(rain)
    ensures ResolveHistory(cfg, Some(list), payloadOf, p, apiHistory) == Some(History(rain, StationSource(station.name)))
  {
  }

  /** A selected station that fails falls back to the forecast service's
      past days, labelled as estimated. */
  lemma FailingStationFallsBack(
    cfg: Config.Object, list: seq<StationFetch.Station>, payloadOf: StationFetch.Station -> Option<string>,
    p: StationFetch.Parsers, series: seq<Option<real>>, station: StationFetch.Station)
    requires Selection(cfg).Some?
    requires FindStation(list, Selection(cfg).value) == Some(station)
    requires StationFetch.StationRain(station, payloadOf(station), p).None?
    ensures ResolveHistory(cfg, Some(list), payloadOf, p, Some(series)) == Some(History(Sums.SumOrZero(series), ApiSource))
  {
  }

  /** A selection that names no configured station uses the forecast service. */
  lemma UnknownStationUsesApi(
    cfg: Config.Object, list: seq<StationFetch.Station>, payloadOf: StationFetch.Station -> Option<string>,
    p: StationFetch.Parsers, apiHistory: Option<seq<Option<real>>>)
    requires Selection(cfg).Some?
    requires forall i :: 0 <= i < |list| ==> Selection(cfg).value != JString(list[i].id)
    ensures ResolveHistory(cfg, Some(list), payloadOf, p, apiHistory) == ApiHistory(apiHistory)
  {
  }

  /** The station label never appears without a station reading: whenever
      the history is labelled with the estimate, its total is the
      forecast service's sum. */
  lemma ApiLabelMeansApiTotal(
    cfg: Config.Object, stations: Option<seq<StationFetch.Station>>, payloadOf: StationFetch.Station -> Option<string>,
    p: StationFetch.Parsers, apiHistory: Option<seq<Option<real>>>)
    requires ResolveHistory(cfg, stations, payloadOf, p, apiHistory).Some?
    requires ResolveHistory(cfg, stations, payloadOf, p, apiHistory).value.source.ApiSource?
    ensures apiHistory.Some?
    ensures ResolveHistory(cfg, stations, payloadOf, p, apiHistory).value.total == Sums.SumOrZero(apiHistory.value)
  {
  }

  /** Past days 10, null, 20, 15 give an estimated 45 mm. */
  lemma FallbackExample()
    ensures ApiHistory(Some([Some(10.0), None, Some(20.0), Some(15.0)])) == Some(History(45.0, ApiSource))
  {
    var xs: seq<Option<real>> := [Some(10.0), None, Some(20.0), Some(15.0)];
    assert xs[..1][..0] == [];
    assert xs[..2][..1] == xs[..1];
    assert xs[..3][..2] == xs[..2];
    assert xs[..3] == [Some(10.0), None, Some(20.0)];
    assert Sums.SumOrZero(xs[..1]) == 10.0;
    assert Sums.SumOrZero(xs[..2]) == 10.0;
    assert Sums.SumOrZero(xs[..3]) == 30.0;
  }
}

=== FILE: forecast.dfy ===
/** The daily series the forecast service returns and the per-day cells the
    dashboard shows from it. */
module Forecast {
  import opened Wrappers

  /** `daily.time`, `daily.precipitation_sum` and
      `daily.precipitation_probability_mean`; null entries are None. */
  datatype DailySeries = DailySeries(
    time: seq<string>,
    precipitationSum: seq<Option<real>>,
    probabilityMean: seq<Option<real>>)

  /** `xs[i]`, reading past the end as None (`undefined`). */
  function At(xs: seq<Option<real>>, i: int): (r: Option<real>)
    ensures 0 <= i < |xs| ==> r == xs[i]
    ensures !(0 <= i < |xs|) ==> r.None?
  {
    if 0 <= i < |xs| then xs[i] else None
  }

  datatype DayCell = DayCell(time: string, rain: Option<real>, prob: Option<real>)

  /** Number of forecast days shown. */
  const ShownDays: nat := 5

  /** `times.map((t, i) => ({t, rain: rain[i], prob: prob[i]})).slice(0, 5)`. */
  function ForecastCells(times: seq<string>, rain: seq<Option<real>>, prob: seq<Option<real>>): (cells: seq<DayCell>)
    ensures |cells| == if |times| < ShownDays then |times| else ShownDays
    ensures forall i :: 0 <= i < |cells| ==> cells[i] == DayCell(times[i], At(rain, i), At(prob, i))
  {
    var n := if |times| < ShownDays then |times| else ShownDays;
    seq(n, i requires 0 <= i < n => DayCell(times[i], At(rain, i), At(prob, i)))
  }

  /** Every shown day has a rain figure; a missing one makes `rain.toFixed`
      throw while the day is rendered. */
  predicate Renderable(cells: seq<DayCell>) {
    forall i :: 0 <= i < |cells| ==> cells[i].rain.Some?
  }
}

=== FILE: json.dfy ===
/** JSON values as `JSON.parse` produces them, with the two pieces of
    JavaScript semantics the dashboard relies on: truthiness and property
    lookup (`value[key]`). */
module Json {
  import opened Wrappers

  datatype Json =
    | JNull
    | JBool(b: bool)
    | JNumber(n: real)
    | JString(s: string)
    | JArray(items: seq<Json>)
    | JObject(fields: map<string, Json>)

  /** JavaScript truthiness of a parsed JSON value. */
  predicate Truthy(v: Json) {
    match v
    case JNull => false
    case JBool(b) => b
    case JNumber(n) => n != 0.0
    case JString(s) => s != ""
    case JArray(_) => true
    case JObject(_) => true
  }

  predicate IsDigit(c: char) {
    '0' <= c <= '9'
  }

  /** Decimal value of a string of digits. */
  function DigitsValue(s: string): nat
    requires forall k :: 0 <= k < |s| ==> IsDigit(s[k])
  {
    if |s| == 0 then 0
    else
      assert IsDigit(s[|s| - 1]);
      DigitsValue(s[..|s| - 1]) * 10 + (s[|s| - 1] as int - '0' as int)
  }

  /** The array index a property key denotes: a non-empty run of digits
      without a leading zero (other than "0" itself). */
  function CanonicalIndex(key: string): (r: Option<nat>)
    ensures r.Some? ==> |key| > 0 && (key[0] == '0' ==> key == "0")
  {
    if |key| == 0 || (key[0] == '0' && |key| > 1) then None
    else if forall k :: 0 <= k < |key| ==> IsDigit(key[k]) then Some(DigitsValue(key))
    else None
  }

  /** `String(n)` for a natural number. */
  function NatToString(n: nat): (r: string)
    ensures |r| > 0 && forall k :: 0 <= k < |r| ==> IsDigit(r[k])
    ensures r[0] == '0' ==> n == 0 && r == "0"
  {
    var d := ['0' + (n % 10) as char];
    if n < 10 then d else NatToString(n / 10) + d
  }

  /** Printing an index and reading it back as a property key gives the index. */
  lemma {:induction false} IndexRoundTrip(n: nat)
    ensures CanonicalIndex(NatToString(n)) == Some(n)
  {
    DigitsRoundTrip(n);
  }

  lemma {:induction false} DigitsRoundTrip(n: nat)
    ensures DigitsValue(NatToString(n)) == n
  {
    var s := NatToString(n);
    if n >= 10 {
      DigitsRoundTrip(n / 10);
      assert s[..|s| - 1] == NatToString(n / 10);
    }
  }

  /** `v[key]` on a parsed JSON value, None standing for `undefined`:
      own keys of objects, index and `length` of arrays and strings (a
      string's length and indices count code points). */
  function Property(v: Json, key: string): (r: Option<Json>)
    ensures v.JObject? ==> (r.Some? <==> key in v.fields)
    ensures v.JObject? && key in v.fields ==> r == Some(v.fields[key])
    ensures v.JNull? || v.JBool? || v.JNumber? ==> r.None?
  {
    match v
    case JObject(m) => if key in m then Some(m[key]) else None
    case JArray(items) =>
      if key == "length" then Some(JNumber(|items| as real))
      else (match CanonicalIndex(key)
            case Some(i) => if i < |items| then Some(items[i]) else None
            case None => None)
    case JString(s) =>
      if key == "length" then Some(JNumber(|s| as real))
      else (match CanonicalIndex(key)
            case Some(i) => if i < |s| then Some(JString([s[i]])) else None
            case None => None)
    case _ => None
  }

  lemma ArrayElementByKey(items: seq<Json>, i: nat)
    requires i < |items|
    ensures Property(JArray(items), NatToString(i)) == Some(items[i])
  {
    IndexRoundTrip(i);
    assert NatToString(i) != "length" by {
      assert "length"[0] == 'l';
    }
  }
}

=== FILE: legacy_dashboard.dfy ===
/** The earlier React dashboard: a single forecast request with seven past
    days, fixed thresholds 90 / 70 / 40, and a follow-up rule based on the
    first forecast day with rain over 1 mm and probability over 30 %. The
    daily series arrives already parsed; None stands for a failed request. */
module LegacyDashboard {
  import opened Wrappers
  import Sums
  import Forecast
  import opened Recommendation

  const PastDays: nat := 7
  const WindowEnd: nat := 14
  const RainDayMinRain: real := 1.0
  const RainDayMinProbability: real := 30.0
  /** Days to the next rain when the window holds no rain day. */
  const NoRainDays: int := 99

  /** `xs.slice(a, b)` for non-negative bounds, clamped to the length. */
  function Slice<T>(xs: seq<T>, a: nat, b: nat): (r: seq<T>)
    ensures |r| == (if b <= |xs| then b else |xs|) - (if a <= b then (if a <= |xs| then a else |xs|) else (if b <= |xs| then b else |xs|))
    ensures forall i :: 0 <= i < |r| ==> r[i] == xs[a + i]
  {
    var hi := if b <= |xs| then b else |xs|;
    var lo := if a <= hi then a else hi;
    xs[lo..hi]
  }

  /** Rain over the first seven days of the series (the past days), nulls as 0. */
  function SevenDayTotal(rain: seq<Option<real>>): real {
    Sums.SumOrZero(Slice(rain, 0, PastDays))
  }

  /** `forecastRain[i] > 1.0 && forecastProb[i] > 30`; null and `undefined`
      compare false. */
  predicate IsRainDay(rain: Option<real>, prob: Option<real>) {
    rain.Some? && rain.value > RainDayMinRain && prob.Some? && prob.value > RainDayMinProbability
  }

  /** The first index from `from` on that is a rain day, or -1. */
  function FirstRainDayFrom(rain: seq<Option<real>>, prob: seq<Option<real>>, from: nat): (k: int)
    requires from <= |rain|
    ensures k == -1 || from <= k < |rain|
    ensures k == -1 <==> forall i :: from <= i < |rain| ==> !IsRainDay(rain[i], Forecast.At(prob, i))
    ensures k != -1 ==> IsRainDay(rain[k], Forecast.At(prob, k))
    ensures forall i :: from <= i < k ==> !IsRainDay(rain[i], Forecast.At(prob, i))
    decreases |rain| - from
  {
    if from == |rain| then -1
    else if IsRainDay(rain[from], Forecast.At(prob, from)) then from
    else FirstRainDayFrom(rain, prob, from + 1)
  }

  /** The search loop with its early exit. */
  method FindNextRainDay(rain: seq<Option<real>>, prob: seq<Option<real>>) returns (index: int)
    ensures index == FirstRainDayFrom(rain, prob, 0)
    ensures index == -1 <==> forall i :: 0 <= i < |rain| ==> !IsRainDay(rain[i], Forecast.At(prob, i))
    ensures index != -1 ==> 0 <= index < |rain| && IsRainDay(rain[index], Forecast.At(prob, index))
  {
    index := -1;
    var i := 0;
    while i < |rain|
      invariant 0 <= i <= |rain|
      invariant FirstRainDayFrom(rain, prob, 0) == FirstRainDayFrom(rain, prob, i)
    {
      if IsRainDay(rain[i], Forecast.At(prob, i)) {
        index := i;
        return;
      }
      i := i + 1;
    }
  }

  /** `nextRainDayIndex + 1`, or 99 when there is none. */
  function DaysToNextRain(rain: seq<Option<real>>, prob: seq<Option<real>>): (d: int)
    ensures d == NoRainDays || 1 <= d <= |rain|
    ensures (forall i :: 0 <= i < |rain| ==> !IsRainDay(rain[i], Forecast.At(prob, i))) ==> d == NoRainDays
    ensures |rain| < NoRainDays ==>
      (d == NoRainDays <==> forall i :: 0 <= i < |rain| ==> !IsRainDay(rain[i], Forecast.At(prob, i)))
    ensures d != NoRainDays ==> 1 <= d <= |rain| && IsRainDay(rain[d - 1], Forecast.At(prob, d - 1))
    ensures d != NoRainDays ==> forall i :: 0 <= i < d - 1 ==> !IsRainDay(rain[i], Forecast.At(prob, i))
  {
    var k := FirstRainDayFrom(rain, prob, 0);
    if k != -1 then k + 1 else NoRainDays
  }

  /** The message templates of this version. */
  datatype LegacyDetail =
    | ThresholdsNotReached
    | DeepSaturation(total: real, noFollowUp: bool)
    | DeepMoisture(total: real, distantFollowUp: bool)
    | RainExpected(total: real, days: int)
    | NoFollowUpNearby(total: real)
    | InsufficientRain(total: real)

  datatype LegacyRecommendation = LegacyRecommendation(level: Level, details: LegacyDetail)

  /** The component's initial recommendation state. */
  const Initial: LegacyRecommendation := LegacyRecommendation(NoViable, ThresholdsNotReached)

  /** The rule engine; `prior` is the recommendation state the effect's
      closure captured, copied and given new details below 40 mm. */
  function LegacyRecommend(prior: LegacyRecommendation, total: real, days: int): (r: LegacyRecommendation)
    ensures total >= 90.0 ==> r.level == Perfecta
    ensures 70.0 <= total < 90.0 ==> r.level == Optima
    ensures 40.0 <= total < 70.0 ==> (r.level == Favorable <==> days <= 5) && (r.level == Arriesgada <==> days > 5)
    ensures total < 40.0 ==> r.level == prior.level && r.details == InsufficientRain(total)
    ensures total >= 90.0 ==> r.details == DeepSaturation(total, days > 7)
    ensures 70.0 <= total < 90.0 ==> r.details == DeepMoisture(total, days > 10)
  {
    if total >= 90.0 then LegacyRecommendation(Perfecta, DeepSaturation(total, days > 7))
    else if total >= 70.0 then LegacyRecommendation(Optima, DeepMoisture(total, days > 10))
    else if total >= 40.0 then
      if days <= 5 then LegacyRecommendation(Favorable, RainExpected(total, days))
      else LegacyRecommendation(Arriesgada, NoFollowUpNearby(total))
    else prior.(details := InsufficientRain(total))
  }

  /** What the component renders. `Crashed` is a render that throws (a
      shown day without a rain figure) and unmounts the tree. */
  datatype LegacyView =
    | LoadError
    | Crashed
    | LegacyPanel(recommendation: LegacyRecommendation, sevenDayTotal: real, days: seq<Forecast.DayCell>)

  /** The forecast window of the series: days 7 to 13. */
  function WindowRain(data: Forecast.DailySeries): seq<Option<real>> {
    Slice(data.precipitationSum, PastDays, WindowEnd)
  }

  function WindowProb(data: Forecast.DailySeries): seq<Option<real>> {
    Slice(data.probabilityMean, PastDays, WindowEnd)
  }

  /** `processAndRecommend(data)` followed by the render. */
  function ProcessAndRecommend(data: Option<Forecast.DailySeries>): (v: LegacyView)
    ensures data.None? <==> v.LoadError?
    ensures v.LegacyPanel? ==>
      && v.sevenDayTotal == SevenDayTotal(data.value.precipitationSum)
      && v.recommendation == LegacyRecommend(Initial, v.sevenDayTotal, DaysToNextRain(WindowRain(data.value), WindowProb(data.value)))
      && v.days == Forecast.ForecastCells(Slice(data.value.time, PastDays, WindowEnd), WindowRain(data.value), WindowProb(data.value))
    ensures v.Crashed? <==>
      data.Some? && !Forecast.Renderable(Forecast.ForecastCells(Slice(data.value.time, PastDays, WindowEnd), WindowRain(data.value), WindowProb(data.value)))
  {
    match data
    case None => LoadError
    case Some(series) =>
      var total := SevenDayTotal(series.precipitationSum);
      var rain := WindowRain(series);
      var prob := WindowProb(series);
      var rec := LegacyRecommend(Initial, total, DaysToNextRain(rain, prob));
      var cells := Forecast.ForecastCells(Slice(series.time, PastDays, WindowEnd), rain, prob);
      if !Forecast.Renderable(cells) then Crashed
      else LegacyPanel(rec, total, cells)
  }

  /** The window holds at most seven days, so the days to the next rain are
      1 to 7, or 99. */
  lemma DaysToNextRainRange(data: Forecast.DailySeries)
    ensures var d := DaysToNextRain(WindowRain(data), WindowProb(data));
      d == NoRainDays || 1 <= d <= 7
  {
  }

  /** Above 90 mm the caution is raised exactly when no forecast day in the
      window is a rain day; above 70 mm the same holds for the risk note,
      whose 10-day bound the 7-day window can never exceed otherwise. */
  lemma FollowUpNoteIffNoRainDay(data: Forecast.DailySeries, total: real)
    requires total >= 70.0
    ensures var r := LegacyRecommend(Initial, total, DaysToNextRain(WindowRain(data), WindowProb(data)));
      var none := forall i :: 0 <= i < |WindowRain(data)| ==> !IsRainDay(WindowRain(data)[i], Forecast.At(WindowProb(data), i));
      (r.details.DeepSaturation? ==> (r.details.noFollowUp <==> none))
      && (r.details.DeepMoisture? ==> (r.details.distantFollowUp <==> none))
  {
    DaysToNextRainRange(data);
  }

  /** Below 40 mm the copied initial state keeps the level No Viable. */
  lemma BelowMinimumStaysNoViable(total: real, days: int)
    requires total < 40.0
    ensures LegacyRecommend(Initial, total, days) == LegacyRecommendation(NoViable, InsufficientRain(total))
  {
  }

  /** A rain day two days out makes a 50 mm event favourable; no rain day
      makes it risky. */
  lemma FavorableIffRainWithinFiveDays(data: Forecast.DailySeries, total: real)
    requires 40.0 <= total < 70.0
    ensures LegacyRecommend(Initial, total, DaysToNextRain(WindowRain(data), WindowProb(data))).level == Favorable
      <==> exists i :: 0 <= i < 5 && i < |WindowRain(data)| && IsRainDay(WindowRain(data)[i], Forecast.At(WindowProb(data), i))
  {
    var rain := WindowRain(data);
    var prob := WindowProb(data);
    var k := FirstRainDayFrom(rain, prob, 0);
    if k != -1 && k < 5 {
      assert IsRainDay(rain[k], Forecast.At(prob, k));
    }
  }
}

=== FILE: rain_series.dfy ===
/** The numeric core of a station's CSV read: rain-rate samples are
    de-duplicated by timestamp (first record wins), sorted by time, and
    integrated as "current rate times the hours since the previous sample",
    skipping gaps longer than a day. Timestamps are integer milliseconds and
    rates are exact reals, so an interval in hours is exact. */
module RainSeries {

  /** One parsed CSV row: a UTC instant in milliseconds and a rain rate per hour. */
  datatype Record = Record(time: int, rate: real)

  const MsPerHour: int := 3600000
  /** Intervals longer than this many hours are treated as an outage. */
  const MaxGapHours: real := 24.0

  function Times(rs: seq<Record>): set<int> {
    set i | 0 <= i < |rs| :: rs[i].time
  }

  /** No two records share a timestamp. */
  predicate Distinct(rs: seq<Record>) {
    forall i, j :: 0 <= i < j < |rs| ==> rs[i].time != rs[j].time
  }

  predicate Sorted(rs: seq<Record>) {
    forall i, j :: 0 <= i < j < |rs| ==> rs[i].time <= rs[j].time
  }

  /** Strictly increasing in time. */
  predicate Ascending(rs: seq<Record>) {
    forall i, j :: 0 <= i < j < |rs| ==> rs[i].time < rs[j].time
  }

  lemma TimesSnoc(rs: seq<Record>, r: Record)
    ensures Times(rs + [r]) == Times(rs) + {r.time}
  {
    var s := rs + [r];
    assert forall i :: 0 <= i < |rs| ==> s[i] == rs[i];
    assert s[|rs|] == r;
  }

  lemma TimesCons(r: Record, rs: seq<Record>)
    ensures Times([r] + rs) == {r.time} + Times(rs)
  {
    var s := [r] + rs;
    assert forall i :: 0 <= i < |rs| ==> s[i + 1] == rs[i];
    assert s[0] == r;
  }

  lemma TimeInTimes(rs: seq<Record>, i: int)
    requires 0 <= i < |rs|
    ensures rs[i].time in Times(rs)
  {
  }

  // ---------------------------------------------------------------- dedup

  /** Keep-first de-duplication by timestamp, in insertion order: a record is
      kept exactly when no earlier record has its timestamp. */
  function Dedup(rs: seq<Record>): (d: seq<Record>)
    ensures Times(d) == Times(rs)
    ensures Distinct(d)
    ensures |d| <= |rs|
    ensures forall k :: 0 <= k < |d| ==> d[k] in rs
  {
    if |rs| == 0 then []
    else
      var init := rs[..|rs| - 1];
      var last := rs[|rs| - 1];
      var d := Dedup(init);
      TimesSnoc(init, last);
      assert rs == init + [last];
      if last.time in Times(d) then d
      else
        TimesSnoc(d, last);
        assert forall k :: 0 <= k < |d| ==> d[k].time in Times(d) by {
          forall k | 0 <= k < |d| {
            TimeInTimes(d, k);
          }
        }
        d + [last]
  }

  /** Position of the first record carrying timestamp `t`. */
  function FirstIndex(rs: seq<Record>, t: int): (i: nat)
    requires t in Times(rs)
    ensures i < |rs| && rs[i].time == t
    ensures forall j :: 0 <= j < i ==> rs[j].time != t
  {
    var init := rs[..|rs| - 1];
    TimesSnoc(init, rs[|rs| - 1]);
    assert rs == init + [rs[|rs| - 1]];
    if t in Times(init) then FirstIndex(init, t) else |rs| - 1
  }

  /** Every kept record is the first record in the input with its timestamp. */
  lemma {:induction false} DedupKeepsFirst(rs: seq<Record>)
    ensures forall k :: 0 <= k < |Dedup(rs)| ==>
      Dedup(rs)[k].time in Times(rs) && Dedup(rs)[k] == rs[FirstIndex(rs, Dedup(rs)[k].time)]
  {
    var d := Dedup(rs);
    if |rs| > 0 {
      var init := rs[..|rs| - 1];
      var last := rs[|rs| - 1];
      DedupKeepsFirst(init);
      TimesSnoc(init, last);
      assert rs == init + [last];
      forall k | 0 <= k < |d|
        ensures d[k].time in Times(rs) && d[k] == rs[FirstIndex(rs, d[k].time)]
      {
        TimeInTimes(d, k);
        if k < |Dedup(init)| {
          assert d[k] == Dedup(init)[k];
          TimeInTimes(Dedup(init), k);
        } else {
          assert d[k] == last;
        }
      }
    }
  }

  /** A record whose timestamp was already seen is discarded entirely. */
  lemma LaterDuplicateDiscarded(rs: seq<Record>, r: Record)
    requires r.time in Times(rs)
    ensures Dedup(rs + [r]) == Dedup(rs)
  {
    assert (rs + [r])[..|rs|] == rs;
  }

  /** Input that already has distinct timestamps passes through unchanged. */
  lemma {:induction false} DedupOfDistinct(rs: seq<Record>)
    requires Distinct(rs)
    ensures Dedup(rs) == rs
  {
    if |rs| > 0 {
      var init := rs[..|rs| - 1];
      var last := rs[|rs| - 1];
      DedupOfDistinct(init);
      assert last.time !in Times(init);
      assert rs == init + [last];
    }
  }

  // ---------------------------------------------------------------- sort

  function Insert(x: Record, s: seq<Record>): (r: seq<Record>)
    ensures multiset(r) == multiset(s) + multiset{x}
    ensures forall k :: 0 <= k < |r| ==> r[k] == x || r[k] in s
  {
    if |s| == 0 || x.time <= s[0].time then
      [x] + s
    else
      assert s == [s[0]] + s[1..];
      [s[0]] + Insert(x, s[1..])
  }

  /** Inserting into a sorted series keeps it sorted. */
  lemma {:induction false} InsertSorted(x: Record, s: seq<Record>)
    requires Sorted(s)
    ensures Sorted(Insert(x, s))
    decreases |s|
  {
    if |s| > 0 && x.time > s[0].time {
      InsertSorted(x, s[1..]);
      var rest := Insert(x, s[1..]);
      forall k | 0 <= k < |rest|
        ensures s[0].time <= rest[k].time
      {
        if rest[k] != x {
          var j :| 0 <= j < |s[1..]| && s[1..][j] == rest[k];
          assert s[j + 1] == rest[k];
        }
      }
      var r := Insert(x, s);
      assert r == [s[0]] + rest;
      forall i, j | 0 <= i < j < |r|
        ensures r[i].time <= r[j].time
      {
        if i > 0 {
          assert r[i] == rest[i - 1] && r[j] == rest[j - 1];
        } else {
          assert r[j] == rest[j - 1];
        }
      }
    }
  }

  /** Records with the same multiset carry the same timestamps. */
  lemma TimesOfPermutation(a: seq<Record>, b: seq<Record>)
    requires multiset(a) == multiset(b)
    ensures Times(a) == Times(b)
  {
    forall t | t in Times(a) ensures t in Times(b) {
      var i :| 0 <= i < |a| && a[i].time == t;
      assert a[i] in multiset(b);
      var j :| 0 <= j < |b| && b[j] == a[i];
    }
    forall t | t in Times(b) ensures t in Times(a) {
      var j :| 0 <= j < |b| && b[j].time == t;
      assert b[j] in multiset(a);
      var i :| 0 <= i < |a| && a[i] == b[j];
    }
  }

  /** Chronological sort, `records.sort((a, b) => a.time - b.time)`. */
  function Sort(rs: seq<Record>): (r: seq<Record>)
    ensures multiset(r) == multiset(rs)
    ensures |r| == |rs|
  {
    if |rs| == 0 then []
    else
      assert rs == [rs[0]] + rs[1..];
      var r := Insert(rs[0], Sort(rs[1..]));
      assert |r| == |multiset(r)| == |multiset(rs)| == |rs|;
      r
  }

  /** The sort's result is in chronological order. */
  lemma {:induction false} SortSorted(rs: seq<Record>)
    ensures Sorted(Sort(rs))
  {
    if |rs| > 0 {
      SortSorted(rs[1..]);
      InsertSorted(rs[0], Sort(rs[1..]));
    }
  }

  lemma {:induction false} InsertAscending(x: Record, s: seq<Record>)
    requires Ascending(s)
    requires forall k :: 0 <= k < |s| ==> s[k].time != x.time
    ensures Ascending(Insert(x, s))
    decreases |s|
  {
    if |s| > 0 && x.time > s[0].time {
      InsertAscending(x, s[1..]);
      var rest := Insert(x, s[1..]);
      forall k | 0 <= k < |rest|
        ensures s[0].time < rest[k].time
      {
        if rest[k] != x {
          var j :| 0 <= j < |s[1..]| && s[1..][j] == rest[k];
          assert s[j + 1] == rest[k];
        }
      }
      var r := Insert(x, s);
      assert r == [s[0]] + rest;
      forall i, j | 0 <= i < j < |r|
        ensures r[i].time < r[j].time
      {
        if i > 0 {
          assert r[i] == rest[i - 1] && r[j] == rest[j - 1];
        } else {
          assert r[j] == rest[j - 1];
        }
      }
    }
  }

  /** Sorting records with distinct timestamps yields a strictly increasing series. */
  lemma {:induction false} SortAscending(rs: seq<Record>)
    requires Distinct(rs)
    ensures Ascending(Sort(rs))
  {
    if |rs| > 0 {
      var tail := Sort(rs[1..]);
      SortAscending(rs[1..]);
      forall k | 0 <= k < |tail|
        ensures tail[k].time != rs[0].time
      {
        assert tail[k] in multiset(rs[1..]);
        var j :| 0 <= j < |rs[1..]| && rs[1..][j] == tail[k];
        assert rs[j + 1] == tail[k];
      }
      InsertAscending(rs[0], tail);
    }
  }

  /** Two strictly increasing series with the same records start with the same record. */
  lemma AscendingHeadsEqual(a: seq<Record>, b: seq<Record>)
    requires Ascending(a) && Ascending(b)
    requires multiset(a) == multiset(b)
    requires |a| > 0 && |b| > 0
    ensures a[0] == b[0]
  {
    assert a[0] in multiset(b);
    assert b[0] in multiset(a);
    var j :| 0 <= j < |b| && b[j] == a[0];
    var i :| 0 <= i < |a| && a[i] == b[0];
    assert a[0].time <= a[i].time;
    assert b[0].time <= b[j].time;
    assert a[i].time == a[0].time;
    assert i == 0;
  }

  /** Two strictly increasing series holding the same records are the same
      series: sorting distinct timestamps has exactly one answer. */
  lemma {:induction false} AscendingUnique(a: seq<Record>, b: seq<Record>)
    requires Ascending(a) && Ascending(b)
    requires multiset(a) == multiset(b)
    ensures a == b
    decreases |a|
  {
    assert |a| == |multiset(a)| == |multiset(b)| == |b|;
    if |a| > 0 {
      AscendingHeadsEqual(a, b);
      assert a == [a[0]] + a[1..];
      assert b == [b[0]] + b[1..];
      assert multiset(a[1..]) == multiset(a) - multiset([a[0]]);
      assert multiset(b[1..]) == multiset(b) - multiset([b[0]]);
      AscendingUnique(a[1..], b[1..]);
    }
  }

  // ------------------------------------------------------------ integrate

  /** Hours between two samples. */
  function Hours(prev: Record, cur: Record): real {
    (cur.time - prev.time) as real / MsPerHour as real
  }

  /** Rain credited to the interval ending at `cur`: the current rate over
      the whole interval, nothing over a gap longer than a day. */
  function Contribution(prev: Record, cur: Record): real {
    var h := Hours(prev, cur);
    if h > MaxGapHours then 0.0
    else if h < 0.0 then 0.0
    else cur.rate * h
  }

  /** Sum of the contributions of all adjacent pairs. */
  function Integral(rs: seq<Record>): real {
    if |rs| < 2 then 0.0
    else Integral(rs[..|rs| - 1]) + Contribution(rs[|rs| - 2], rs[|rs| - 1])
  }

  /** The accumulation loop over adjacent pairs. */
  method Integrate(rs: seq<Record>) returns (total: real)
    ensures total == Integral(rs)
    ensures |rs| < 2 ==> total == 0.0
  {
    total := 0.0;
    var i := 1;
    while i < |rs|
      invariant 1 <= i
      invariant i <= |rs| || |rs| == 0
      invariant total == Integral(rs[..if i <= |rs| then i else 0])
    {
      var current := rs[i];
      var prev := rs[i - 1];
      var deltaHours := (current.time - prev.time) as real / MsPerHour as real;
      if !(deltaHours > MaxGapHours) && !(deltaHours < 0.0) {
        total := total + current.rate * deltaHours;
      }
      assert rs[..i + 1][..i] == rs[..i];
      i := i + 1;
    }
    assert rs[..if i <= |rs| then i else 0] == rs || |rs| < 2;
  }

  /** With non-negative rates the accumulated rain is non-negative. */
  lemma {:induction false} IntegralNonNegative(rs: seq<Record>)
    requires forall i :: 0 <= i < |rs| ==> rs[i].rate >= 0.0
    ensures Integral(rs) >= 0.0
    decreases |rs|
  {
    if |rs| >= 2 {
      IntegralNonNegative(rs[..|rs| - 1]);
      var h := Hours(rs[|rs| - 2], rs[|rs| - 1]);
      if 0.0 <= h {
        assert rs[|rs| - 1].rate * h >= 0.0;
      }
    }
  }

  /** A gap of more than 24 hours in milliseconds is more than `MaxGapHours` hours. */
  lemma GapInHours(prev: Record, cur: Record)
    requires cur.time - prev.time > 24 * MsPerHour
    ensures Hours(prev, cur) > MaxGapHours
  {
  }

  /** A gap of more than a day cuts the series into independently integrated parts. */
  lemma {:induction false} IntegralSplitsAtGap(a: seq<Record>, b: seq<Record>)
    requires |a| >= 1 && |b| >= 1
    requires b[0].time - a[|a| - 1].time > 24 * MsPerHour
    ensures Integral(a + b) == Integral(a) + Integral(b)
    decreases |b|
  {
    var ab := a + b;
    GapInHours(a[|a| - 1], b[0]);
    if |b| == 1 {
      assert ab[..|ab| - 1] == a;
    } else {
      IntegralSplitsAtGap(a, b[..|b| - 1]);
      assert ab[..|ab| - 1] == a + b[..|b| - 1];
    }
  }

  /** The first sample's rate never matters: it has no earlier sample to integrate from. */
  lemma {:induction false} FirstRateIgnored(rs: seq<Record>, x: real)
    requires |rs| >= 1
    ensures Integral(rs[0 := rs[0].(rate := x)]) == Integral(rs)
    decreases |rs|
  {
    var rs' := rs[0 := rs[0].(rate := x)];
    if |rs| > 2 {
      FirstRateIgnored(rs[..|rs| - 1], x);
      assert rs'[..|rs'| - 1] == rs[..|rs| - 1][0 := rs[0].(rate := x)];
    } else if |rs| == 2 {
      assert rs'[..1] == [rs'[0]];
      assert rs[..1] == [rs[0]];
    }
  }

  /** Two samples one hour apart, the later at 2 mm/h, give exactly 2 mm. */
  lemma OneHourAtTwo(t: int, firstRate: real)
    ensures Integral([Record(t, firstRate), Record(t + MsPerHour, 2.0)]) == 2.0
  {
    assert [Record(t, firstRate), Record(t + MsPerHour, 2.0)][..1] == [Record(t, firstRate)];
  }

  /** A 30-hour gap contributes nothing, whatever the rate. */
  lemma ThirtyHourGap(t: int, firstRate: real, rate: real)
    ensures Integral([Record(t, firstRate), Record(t + 30 * MsPerHour, rate)]) == 0.0
  {
    assert [Record(t, firstRate), Record(t + 30 * MsPerHour, rate)][..1] == [Record(t, firstRate)];
  }

  /** A gap of exactly 24 hours is still integrated. */
  lemma ExactlyOneDay(t: int, firstRate: real, rate: real)
    ensures Integral([Record(t, firstRate), Record(t + 24 * MsPerHour, rate)]) == 24.0 * rate
  {
    assert [Record(t, firstRate), Record(t + 24 * MsPerHour, rate)][..1] == [Record(t, firstRate)];
  }

  // ------------------------------------------------------------- pipeline

  /** Dedup, sort, integrate. */
  function SeriesTotal(records: seq<Record>): real {
    Integral(Sort(Dedup(records)))
  }

  /** Appending a record whose timestamp was already seen leaves the total unchanged. */
  lemma LaterDuplicateIgnored(records: seq<Record>, r: Record)
    requires r.time in Times(records)
    ensures SeriesTotal(records + [r]) == SeriesTotal(records)
  {
    LaterDuplicateDiscarded(records, r);
  }

  /** The total depends only on which records survive de-duplication, not on
      the order they arrived in. */
  lemma SeriesTotalOrderIndependent(rs1: seq<Record>, rs2: seq<Record>)
    requires multiset(Dedup(rs1)) == multiset(Dedup(rs2))
    ensures SeriesTotal(rs1) == SeriesTotal(rs2)
  {
    SortAscending(Dedup(rs1));
    SortAscending(Dedup(rs2));
    AscendingUnique(Sort(Dedup(rs1)), Sort(Dedup(rs2)));
  }

  /** Reordering records with distinct timestamps does not change the total. */
  lemma PermutationInvariant(rs1: seq<Record>, rs2: seq<Record>)
    requires Distinct(rs1) && Distinct(rs2)
    requires multiset(rs1) == multiset(rs2)
    ensures SeriesTotal(rs1) == SeriesTotal(rs2)
  {
    DedupOfDistinct(rs1);
    DedupOfDistinct(rs2);
    SeriesTotalOrderIndependent(rs1, rs2);
  }
}

=== FILE: recommendation.dfy ===
/** The configurable rule engine of the live dashboard: the seven-day total is
    checked against the PERFECT, OPTIMAL and MINIMUM thresholds in that order,
    first match wins, and only the MINIMUM band is downgraded (to Arriesgada)
    when the forecast follow-up rain falls short. */
module Recommendation {
  import opened Wrappers
  import Sums

  /** The five sowing-window levels, lowest first. */
  datatype Level = NoViable | Arriesgada | Favorable | Optima | Perfecta

  function Rank(l: Level): nat {
    match l
    case NoViable => 0
    case Arriesgada => 1
    case Favorable => 2
    case Optima => 3
    case Perfecta => 4
  }

  /** Configured thresholds in millimetres; None is a missing or NaN value,
      against which every `>=` comparison is false. */
  datatype Thresholds = Thresholds(perfect: Option<real>, optimal: Option<real>, minimum: Option<real>)

  /** A configured number as a JavaScript `||` default and a `>=` comparison
      see it: falsy (missing, 0, "", null, false) so that the default applies,
      a truthy value comparing as the number `x`, or a truthy value that is
      NaN to every comparison (a non-numeric string, an object). */
  datatype Setting = Unset | Value(x: real) | NotANumber

  /** FORECAST_DAYS and MIN_FOLLOW_UP_RAIN as stored. */
  datatype Criteria = Criteria(forecastDays: Setting, minFollowUpRain: Setting)

  const DefaultForecastDays: real := 7.0
  const DefaultMinFollowUpRain: real := 5.0

  /** `x >= t` in JavaScript for a threshold that may be missing or NaN. */
  predicate Meets(x: real, t: Option<real>) {
    t.Some? && x >= t.value
  }

  /** `setting || d` as a number; None when the kept value is NaN. */
  function OrDefault(s: Setting, d: real): Option<real> {
    match s
    case Unset => Some(d)
    case Value(x) => Some(x)
    case NotANumber => None
  }

  /** `FORECAST_DAYS || 7`. */
  function ForecastDaysCount(c: Criteria): Option<real> {
    OrDefault(c.forecastDays, DefaultForecastDays)
  }

  /** `MIN_FOLLOW_UP_RAIN || 5.0`. */
  function MinFollowUp(c: Criteria): Option<real> {
    OrDefault(c.minFollowUpRain, DefaultMinFollowUpRain)
  }

  /** Forecast rain over the window, nulls counted as 0. */
  function TotalForecastRain(forecastRain: seq<Option<real>>): real {
    Sums.SumOrZero(forecastRain)
  }

  /** `totalForecastRain >= minFollowUpRain`. */
  predicate HasFollowUp(forecastRain: seq<Option<real>>, c: Criteria) {
    Meets(TotalForecastRain(forecastRain), MinFollowUp(c))
  }

  /** The follow-up figures quoted in a detail message (None for a
      non-numeric setting, which is quoted as written). */
  datatype FollowUp = FollowUp(rain: real, days: Option<real>)

  /** The message templates, with the figures each one quotes. */
  datatype Detail =
    | Saturation(total: real, caution: Option<FollowUp>)
    | GoodMoisture(total: real, risk: Option<FollowUp>)
    | SurfaceMoisture(total: real, outlook: FollowUp)
    | FollowUpShortfall(total: real, forecastRain: real, needed: Option<real>)
    | Insufficient(total: real, minimum: Option<real>)

  datatype Recommendation = Recommendation(level: Level, details: Detail)

  /** `processAndRecommend`'s rule engine. */
  function Classify(sevenDayTotal: real, forecastRain: seq<Option<real>>, th: Thresholds, c: Criteria): (r: Recommendation)
    ensures r.level == Perfecta <==> Meets(sevenDayTotal, th.perfect)
    ensures r.level == Optima <==> !Meets(sevenDayTotal, th.perfect) && Meets(sevenDayTotal, th.optimal)
    ensures r.level == NoViable <==>
      !Meets(sevenDayTotal, th.perfect) && !Meets(sevenDayTotal, th.optimal) && !Meets(sevenDayTotal, th.minimum)
    ensures r.level == Favorable ==> HasFollowUp(forecastRain, c)
    ensures r.level == Arriesgada ==>
      r.details == FollowUpShortfall(sevenDayTotal, TotalForecastRain(forecastRain), MinFollowUp(c))
    ensures r.level == Perfecta ==>
      r.details.Saturation? && (r.details.caution.Some? <==> !HasFollowUp(forecastRain, c))
    ensures r.level == Optima ==>
      r.details.GoodMoisture? && (r.details.risk.Some? <==> !HasFollowUp(forecastRain, c))
    ensures r.level == NoViable ==> r.details == Insufficient(sevenDayTotal, th.minimum)
  {
    var forecastDaysCount := ForecastDaysCount(c);
    var minFollowUpRain := MinFollowUp(c);
    var totalForecastRain := TotalForecastRain(forecastRain);
    var hasFollowUpRain := Meets(totalForecastRain, minFollowUpRain);
    var followUp := FollowUp(totalForecastRain, forecastDaysCount);
    if Meets(sevenDayTotal, th.perfect) then
      Recommendation(Perfecta, Saturation(sevenDayTotal, if hasFollowUpRain then None else Some(followUp)))
    else if Meets(sevenDayTotal, th.optimal) then
      Recommendation(Optima, GoodMoisture(sevenDayTotal, if hasFollowUpRain then None else Some(followUp)))
    else if Meets(sevenDayTotal, th.minimum) then
      if hasFollowUpRain then Recommendation(Favorable, SurfaceMoisture(sevenDayTotal, followUp))
      else Recommendation(Arriesgada, FollowUpShortfall(sevenDayTotal, totalForecastRain, minFollowUpRain))
    else
      Recommendation(NoViable, Insufficient(sevenDayTotal, th.minimum))
  }

  // ----------------------------------------------- reference rule table

  /** Position of the first threshold in `ts` that `x` meets, or |ts| when none. */
  function FirstMet(x: real, ts: seq<Option<real>>): (k: nat)
    ensures k <= |ts|
    ensures k < |ts| ==> Meets(x, ts[k])
    ensures forall j :: 0 <= j < k ==> !Meets(x, ts[j])
  {
    if |ts| == 0 then 0
    else if Meets(x, ts[0]) then 0
    else 1 + FirstMet(x, ts[1..])
  }

  /** The rule table: one level per matched rule, the MINIMUM rule split by follow-up. */
  function RuleLevel(rule: nat, hasFollowUpRain: bool): Level {
    if rule == 0 then Perfecta
    else if rule == 1 then Optima
    else if rule == 2 then (if hasFollowUpRain then Favorable else Arriesgada)
    else NoViable
  }

  function RuleOrder(th: Thresholds): seq<Option<real>> {
    [th.perfect, th.optimal, th.minimum]
  }

  /** The engine is the first-match evaluation of the ordered rule table,
      whatever order the configured values are in. */
  lemma ClassifyIsFirstMatch(sevenDayTotal: real, forecastRain: seq<Option<real>>, th: Thresholds, c: Criteria)
    ensures Classify(sevenDayTotal, forecastRain, th, c).level ==
      RuleLevel(FirstMet(sevenDayTotal, RuleOrder(th)), HasFollowUp(forecastRain, c))
  {
    var ts := RuleOrder(th);
    var k := FirstMet(sevenDayTotal, ts);
    assert ts[0] == th.perfect && ts[1] == th.optimal && ts[2] == th.minimum;
    if k == 0 {
      assert Meets(sevenDayTotal, th.perfect);
    } else if k == 1 {
      assert !Meets(sevenDayTotal, th.perfect) && Meets(sevenDayTotal, th.optimal);
    } else if k == 2 {
      assert !Meets(sevenDayTotal, ts[0]) && !Meets(sevenDayTotal, ts[1]) && Meets(sevenDayTotal, th.minimum);
    } else {
      assert !Meets(sevenDayTotal, ts[0]) && !Meets(sevenDayTotal, ts[1]) && !Meets(sevenDayTotal, ts[2]);
    }
  }

  /** More accumulated rain never lowers the recommendation, even with
      thresholds out of order: the first rule met can only move up the table. */
  lemma MonotoneInTotal(t1: real, t2: real, forecastRain: seq<Option<real>>, th: Thresholds, c: Criteria)
    requires t1 <= t2
    ensures Rank(Classify(t1, forecastRain, th, c).level) <= Rank(Classify(t2, forecastRain, th, c).level)
  {
    ClassifyIsFirstMatch(t1, forecastRain, th, c);
    ClassifyIsFirstMatch(t2, forecastRain, th, c);
    FirstMetAntitone(t1, t2, RuleOrder(th));
  }

  lemma {:induction false} FirstMetAntitone(x1: real, x2: real, ts: seq<Option<real>>)
    requires x1 <= x2
    ensures FirstMet(x2, ts) <= FirstMet(x1, ts)
    decreases |ts|
  {
    if |ts| > 0 && !Meets(x2, ts[0]) {
      FirstMetAntitone(x1, x2, ts[1..]);
    }
  }

  /** More forecast rain never lowers the recommendation. */
  lemma MonotoneInFollowUp(total: real, f1: seq<Option<real>>, f2: seq<Option<real>>, th: Thresholds, c: Criteria)
    requires TotalForecastRain(f1) <= TotalForecastRain(f2)
    ensures Rank(Classify(total, f1, th, c).level) <= Rank(Classify(total, f2, th, c).level)
  {
  }

  /** In the MINIMUM band the level is Favorable exactly when the follow-up
      rain reaches the configured amount, and Arriesgada otherwise. */
  lemma DowngradeLaw(total: real, forecastRain: seq<Option<real>>, th: Thresholds, c: Criteria)
    requires !Meets(total, th.perfect) && !Meets(total, th.optimal) && Meets(total, th.minimum)
    ensures Classify(total, forecastRain, th, c).level == Favorable <==> HasFollowUp(forecastRain, c)
    ensures Classify(total, forecastRain, th, c).level == Arriesgada <==> !HasFollowUp(forecastRain, c)
  {
  }

  /** A follow-up setting that is not a number never compares true, so the
      MINIMUM band always downgrades and the upper bands always warn. */
  lemma NonNumericFollowUpAlwaysShort(total: real, forecastRain: seq<Option<real>>, th: Thresholds, c: Criteria)
    requires c.minFollowUpRain.NotANumber?
    ensures Classify(total, forecastRain, th, c).level != Favorable
    ensures Meets(total, th.minimum) && !Meets(total, th.optimal) && !Meets(total, th.perfect) ==>
      Classify(total, forecastRain, th, c).level == Arriesgada
  {
  }

  /** Worked example: thresholds 40/70/90, 50 mm accumulated, default 5 mm
      follow-up: 6.0 mm ahead is Favorable, 4.9 mm is Arriesgada. */
  lemma DowngradeExample(c: Criteria)
    requires c.minFollowUpRain.Unset?
    ensures Classify(50.0, [Some(6.0)], Thresholds(Some(90.0), Some(70.0), Some(40.0)), c).level == Favorable
    ensures Classify(50.0, [Some(4.9)], Thresholds(Some(90.0), Some(70.0), Some(40.0)), c).level == Arriesgada
  {
    assert [Some(6.0)][..0] == [];
    assert [Some(4.9)][..0] == [];
  }

  /** A total exactly on a threshold takes that threshold's level. */
  lemma BoundaryIsInclusive(forecastRain: seq<Option<real>>, c: Criteria)
    ensures Classify(70.0, forecastRain, Thresholds(Some(90.0), Some(70.0), Some(40.0)), c).level == Optima
    ensures Classify(90.0, forecastRain, Thresholds(Some(90.0), Some(70.0), Some(40.0)), c).level == Perfecta
  {
  }
}

=== FILE: station_csv.dfy ===
/** A station's CSV payload read into accumulated rain: header lookup of the
    date and rain-rate columns, row parsing with silent drops, then the
    dedup / sort / integrate pipeline of RainSeries. Date and number parsing
    are abstract partial functions supplied by the caller. */
module StationCsv {
  import opened Wrappers
  import opened Text
  import opened RainSeries

  /** `new Date(s.endsWith('Z') ? s : s + 'Z')` read as milliseconds (None for an invalid date) and
      `parseFloat` (None for NaN). */
  datatype CsvParsers = CsvParsers(date: string -> Option<int>, rate: string -> Option<real>)

  const CellDelims: set<char> := {';', ','}
  const DateColumn: string := "dateutc"
  const DefaultRainColumn: string := "rainratein"

  /** `text.trim().split('\n')`. */
  function Rows(text: string): (rows: seq<string>)
    ensures |rows| >= 1
  {
    Split(Trim(text), {'\n'})
  }

  /** The quote characters a header loses. */
  const Quotes: set<char> := {'\'', '"'}

  /** A header already in the normalised shape: no whitespace at either end,
      no ASCII capital and no quote character. */
  predicate Normalised(h: string) {
    && (|h| == 0 || (!IsJsSpace(h[0]) && !IsJsSpace(h[|h| - 1])))
    && NoCapitals(h)
    && forall k :: 0 <= k < |h| ==> h[k] !in Quotes
  }

  /** A header cell trimmed, ASCII lower-cased and stripped of every quote character. */
  function HeaderCell(h: string): (r: string)
    ensures forall k :: 0 <= k < |r| ==> !('A' <= r[k] <= 'Z') && r[k] != '"' && r[k] != '\''
    ensures Normalised(h) ==> r == h
  {
    var low := Lower(Trim(h));
    NoCapitalsSurviveRemoval(low, Quotes);
    NormalisedKept(h);
    RemoveAll(low, Quotes)
  }

  lemma NormalisedKept(h: string)
    ensures Normalised(h) ==> Lower(Trim(h)) == h
  {
    if Normalised(h) {
      assert Trim(h) == h;
    }
  }

  /** A quoted, mixed-case header reads as the lower-case column name. */
  lemma QuotedHeaderExample(q: string)
    requires q == "\"DateUTC\""
    ensures HeaderCell(q) == "dateutc"
  {
    assert Trim(q) == q;
    var low := Lower(q);
    assert low == "\"" + "dateutc" + "\"";
    QuotesDropped("dateutc");
  }

  /** Whitespace around a header is trimmed before lower-casing. */
  lemma SpacedHeaderExample(h: string)
    requires h == " rainRateIn "
    ensures HeaderCell(h) == "rainratein"
  {
    SpacedHeaderTrimmed(h);
    LowerRainRate("rainRateIn");
    QuoteFree("rainratein");
  }

  lemma SpacedHeaderTrimmed(h: string)
    requires h == " rainRateIn "
    ensures Trim(h) == "rainRateIn"
  {
    assert h == " " + "rainRateIn" + " ";
    TrimPadded("rainRateIn");
  }

  /** A text with no whitespace at its ends, padded by one space on each
      side, trims back to itself. */
  lemma TrimPadded(t: string)
    requires |t| > 0 && !IsJsSpace(t[0]) && !IsJsSpace(t[|t| - 1])
    ensures Trim(" " + t + " ") == t
  {
    var h := " " + t + " ";
    assert TrimmedAt(h, t, 1) by {
      assert h[1..1 + |t|] == t;
    }
    var r := Trim(h);
    var i :| TrimmedAt(h, r, i);
    TrimUnique(h, r, i, t, 1);
  }

  lemma LowerRainRate(t: string)
    requires t == "rainRateIn"
    ensures Lower(t) == "rainratein"
  {
  }

  lemma QuoteFree(t: string)
    requires t == "rainratein"
    ensures RemoveAll(t, Quotes) == t
  {
  }

  /** Quotes go after trimming, so a space inside them survives and the
      header no longer matches its column name. */
  lemma SpaceInsideQuotesKept(q: string)
    requires q == "\" dateutc\""
    ensures HeaderCell(q) == " dateutc"
    ensures HeaderCell(q) != DateColumn
  {
    assert Trim(q) == q;
    var low := Lower(q);
    assert low == "\"" + " dateutc" + "\"";
    QuotesDropped(" dateutc");
  }

  /** A double-quoted quote-free text loses exactly its two quotes. */
  lemma QuotesDropped(t: string)
    requires forall k :: 0 <= k < |t| ==> t[k] !in Quotes
    ensures RemoveAll("\"" + t + "\"", Quotes) == t
  {
    RemoveAllAppend("\"" + t, "\"", Quotes);
    RemoveAllAppend("\"", t, Quotes);
    assert RemoveAll("\"", Quotes) == "";
  }

  predicate NoCapitals(s: string) {
    forall k :: 0 <= k < |s| ==> !('A' <= s[k] <= 'Z')
  }

  lemma NoCapitalsSurviveRemoval(s: string, cs: set<char>)
    requires NoCapitals(s)
    ensures NoCapitals(RemoveAll(s, cs))
  {
    var r := RemoveAll(s, cs);
    forall k | 0 <= k < |r| ensures !('A' <= r[k] <= 'Z') {
      var j :| 0 <= j < |s| && s[j] == r[k];
    }
  }

  /** The normalised cells of the first row. */
  function Headers(text: string): (hs: seq<string>)
    ensures |hs| == |Split(Rows(text)[0], CellDelims)|
  {
    var cells := Split(Rows(text)[0], CellDelims);
    seq(|cells|, i requires 0 <= i < |cells| => HeaderCell(cells[i]))
  }

  /** A data cell with one outer quote on each side removed, then trimmed. */
  function DataCells(row: string): (cs: seq<string>)
    ensures |cs| == |Split(row, CellDelims)|
  {
    var cells := Split(row, CellDelims);
    seq(|cells|, i requires 0 <= i < |cells| => Trim(StripOuterQuotes(cells[i])))
  }

  /** `station.mapping || 'rainratein'`. */
  function RainColumn(mapping: string): string {
    if mapping == "" then DefaultRainColumn else mapping
  }

  /** Both the date column and the rain column appear in the header row. */
  predicate ColumnsFound(text: string, mapping: string) {
    DateColumn in Headers(text) && RainColumn(mapping) in Headers(text)
  }

  /** The cells of every data row (all rows after the header). */
  function DataRows(text: string): (rows: seq<seq<string>>)
    ensures |rows| == |Rows(text)| - 1
    ensures forall i :: 0 <= i < |rows| ==> rows[i] == DataCells(Rows(text)[i + 1])
  {
    var lines := Rows(text);
    seq(|lines| - 1, i requires 0 <= i < |lines| - 1 => DataCells(lines[i + 1]))
  }

  /** What one data row does to the record list. `Abort` is the row that is
      long enough for the rain column but too short for the date column: the
      date cell is `undefined`, reading it throws, and the whole read fails. */
  datatype RowOutcome = Skip | Keep(record: Record) | Abort

  /** The row that reads past its cells for the date after passing the length check. */
  predicate Aborts(cols: seq<string>, dateIndex: nat, rainIndex: nat) {
    rainIndex < |cols| <= dateIndex
  }

  function ReadRow(cols: seq<string>, dateIndex: nat, rainIndex: nat, p: CsvParsers): (o: RowOutcome)
    ensures |cols| <= rainIndex ==> o == Skip
    ensures o == Abort <==> Aborts(cols, dateIndex, rainIndex)
    ensures o.Keep? ==>
      && dateIndex < |cols| && rainIndex < |cols|
      && p.date(cols[dateIndex]) == Some(o.record.time)
      && p.rate(cols[rainIndex]) == Some(o.record.rate)
    ensures dateIndex < |cols| && rainIndex < |cols| && p.date(cols[dateIndex]).Some? && p.rate(cols[rainIndex]).Some? ==>
      o.Keep?
  {
    if |cols| <= rainIndex then Skip
    else if |cols| <= dateIndex then Abort
    else
      match (p.date(cols[dateIndex]), p.rate(cols[rainIndex]))
      case (Some(t), Some(v)) => Keep(Record(t, v))
      case _ => Skip
  }

  predicate SomeRowAborts(rows: seq<seq<string>>, dateIndex: nat, rainIndex: nat) {
    exists i :: 0 <= i < |rows| && Aborts(rows[i], dateIndex, rainIndex)
  }

  /** Some row aborts exactly when some row before the last does or the last does. */
  lemma AbortsSnoc(rows: seq<seq<string>>, dateIndex: nat, rainIndex: nat)
    requires |rows| > 0
    ensures SomeRowAborts(rows, dateIndex, rainIndex) <==>
      SomeRowAborts(rows[..|rows| - 1], dateIndex, rainIndex) || Aborts(rows[|rows| - 1], dateIndex, rainIndex)
  {
    var init := rows[..|rows| - 1];
    if SomeRowAborts(rows, dateIndex, rainIndex) {
      var i :| 0 <= i < |rows| && Aborts(rows[i], dateIndex, rainIndex);
      if i < |init| {
        assert init[i] == rows[i];
      }
    }
    if SomeRowAborts(init, dateIndex, rainIndex) {
      var i :| 0 <= i < |init| && Aborts(init[i], dateIndex, rainIndex);
      assert rows[i] == init[i];
    }
  }

  /** The parsing loop over the data rows: kept rows in order, None as soon
      as any row aborts. */
  function ReadRows(rows: seq<seq<string>>, dateIndex: nat, rainIndex: nat, p: CsvParsers): (r: Option<seq<Record>>)
    ensures r.None? <==> SomeRowAborts(rows, dateIndex, rainIndex)
    ensures r.Some? ==> |r.value| <= |rows|
  {
    if |rows| == 0 then Some([])
    else
      var init := rows[..|rows| - 1];
      var last := rows[|rows| - 1];
      AbortsSnoc(rows, dateIndex, rainIndex);
      match ReadRows(init, dateIndex, rainIndex, p)
      case None => None
      case Some(rs) =>
        match ReadRow(last, dateIndex, rainIndex, p)
        case Skip => Some(rs)
        case Keep(rec) => Some(rs + [rec])
        case Abort => None
  }

  /** Accumulated rain of a CSV payload: 0 when a column is missing, None when
      a row aborts the read, otherwise the integral of the cleaned series. */
  function CsvTotal(text: string, mapping: string, p: CsvParsers): (r: Option<real>)
    ensures !ColumnsFound(text, mapping) ==> r == Some(0.0)
    ensures r.None? <==>
      && ColumnsFound(text, mapping)
      && SomeRowAborts(DataRows(text), IndexOf(Headers(text), DateColumn) as nat,
                       IndexOf(Headers(text), RainColumn(mapping)) as nat)
    ensures r.Some? && ColumnsFound(text, mapping) ==>
      r.value == SeriesTotal(KeptRecords(DataRows(text), IndexOf(Headers(text), DateColumn) as nat,
                                         IndexOf(Headers(text), RainColumn(mapping)) as nat, p))
  {
    var headers := Headers(text);
    var dateIndex := IndexOf(headers, DateColumn);
    var rainIndex := IndexOf(headers, RainColumn(mapping));
    if dateIndex == -1 || rainIndex == -1 then Some(0.0)
    else
      ReadRowsKept(DataRows(text), dateIndex as nat, rainIndex as nat, p);
      match ReadRows(DataRows(text), dateIndex as nat, rainIndex as nat, p)
      case None => None
      case Some(records) => Some(SeriesTotal(records))
  }

  /** The record a row contributes: one when it is kept, none otherwise. */
  function RowRecords(row: seq<string>, dateIndex: nat, rainIndex: nat, p: CsvParsers): seq<Record> {
    match ReadRow(row, dateIndex, rainIndex, p)
    case Keep(rec) => [rec]
    case _ => []
  }

  /** The records of the kept rows, in row order: what the parse loop
      collects when no row aborts. */
  function KeptRecords(rows: seq<seq<string>>, dateIndex: nat, rainIndex: nat, p: CsvParsers): seq<Record> {
    if |rows| == 0 then []
    else RowRecords(rows[0], dateIndex, rainIndex, p) + KeptRecords(rows[1..], dateIndex, rainIndex, p)
  }

  lemma {:induction false} KeptAppend(a: seq<seq<string>>, b: seq<seq<string>>, dateIndex: nat, rainIndex: nat, p: CsvParsers)
    ensures KeptRecords(a + b, dateIndex, rainIndex, p) == KeptRecords(a, dateIndex, rainIndex, p) + KeptRecords(b, dateIndex, rainIndex, p)
    decreases |a|
  {
    if |a| == 0 {
      assert a + b == b;
    } else {
      KeptAppend(a[1..], b, dateIndex, rainIndex, p);
      assert (a + b)[1..] == a[1..] + b;
    }
  }

  /** The parse loop yields the kept records whenever no row aborts. */
  lemma {:induction false} ReadRowsKept(rows: seq<seq<string>>, dateIndex: nat, rainIndex: nat, p: CsvParsers)
    ensures !SomeRowAborts(rows, dateIndex, rainIndex) ==>
      ReadRows(rows, dateIndex, rainIndex, p) == Some(KeptRecords(rows, dateIndex, rainIndex, p))
    decreases |rows|
  {
    if |rows| > 0 && !SomeRowAborts(rows, dateIndex, rainIndex) {
      var init := rows[..|rows| - 1];
      var last := rows[|rows| - 1];
      AbortsSnoc(rows, dateIndex, rainIndex);
      ReadRowsKept(init, dateIndex, rainIndex, p);
      KeptAppend(init, [last], dateIndex, rainIndex, p);
      assert init + [last] == rows;
      assert KeptRecords([last], dateIndex, rainIndex, p) == RowRecords(last, dateIndex, rainIndex, p) + KeptRecords([], dateIndex, rainIndex, p);
      assert !SomeRowAborts(init, dateIndex, rainIndex);
      var kept := KeptRecords(init, dateIndex, rainIndex, p);
      assert ReadRows(init, dateIndex, rainIndex, p) == Some(kept);
      match ReadRow(last, dateIndex, rainIndex, p)
      case Skip =>
        assert kept + RowRecords(last, dateIndex, rainIndex, p) == kept;
      case Keep(rec) =>
        assert RowRecords(last, dateIndex, rainIndex, p) == [rec];
        assert KeptRecords([last], dateIndex, rainIndex, p) == [rec];
      case Abort =>
        assert false;
    }
  }

  /** Reordering the data rows reorders the kept records the same way. */
  lemma {:induction false} KeptPermutation(rows1: seq<seq<string>>, rows2: seq<seq<string>>, dateIndex: nat, rainIndex: nat, p: CsvParsers)
    requires multiset(rows1) == multiset(rows2)
    ensures multiset(KeptRecords(rows1, dateIndex, rainIndex, p)) == multiset(KeptRecords(rows2, dateIndex, rainIndex, p))
    decreases |rows1|
  {
    if |rows1| > 0 {
      var x := rows1[0];
      assert x in multiset(rows2);
      var j :| 0 <= j < |rows2| && rows2[j] == x;
      var rest1 := rows1[..0] + rows1[1..];
      var rest2 := rows2[..j] + rows2[j + 1..];
      assert multiset(rest1) == multiset(rest2) by {
        RemoveAt(rows1, 0);
        RemoveAt(rows2, j);
      }
      KeptPermutation(rest1, rest2, dateIndex, rainIndex, p);
      var recs := multiset(RowRecords(x, dateIndex, rainIndex, p));
      assert multiset(KeptRecords(rows1, dateIndex, rainIndex, p)) == multiset(KeptRecords(rest1, dateIndex, rainIndex, p)) + recs by {
        KeptAround(rows1, 0, dateIndex, rainIndex, p);
      }
      assert multiset(KeptRecords(rows2, dateIndex, rainIndex, p)) == multiset(KeptRecords(rest2, dateIndex, rainIndex, p)) + recs by {
        KeptAround(rows2, j, dateIndex, rainIndex, p);
      }
    }
  }

  /** Taking out the element at `j` takes one copy of it out of the multiset. */
  lemma RemoveAt<T>(s: seq<T>, j: nat)
    requires j < |s|
    ensures multiset(s[..j] + s[j + 1..]) == multiset(s) - multiset{s[j]}
  {
    assert s == s[..j] + [s[j]] + s[j + 1..];
  }

  /** The kept records of a row list are those of the row at `j` together
      with those of the other rows. */
  lemma KeptAround(rows: seq<seq<string>>, j: nat, dateIndex: nat, rainIndex: nat, p: CsvParsers)
    requires j < |rows|
    ensures multiset(KeptRecords(rows, dateIndex, rainIndex, p))
         == multiset(KeptRecords(rows[..j] + rows[j + 1..], dateIndex, rainIndex, p)) + multiset(RowRecords(rows[j], dateIndex, rainIndex, p))
  {
    assert rows == rows[..j] + [rows[j]] + rows[j + 1..];
    KeptAppend(rows[..j] + [rows[j]], rows[j + 1..], dateIndex, rainIndex, p);
    KeptAppend(rows[..j], [rows[j]], dateIndex, rainIndex, p);
    KeptAppend(rows[..j], rows[j + 1..], dateIndex, rainIndex, p);
    assert KeptRecords([rows[j]], dateIndex, rainIndex, p) == RowRecords(rows[j], dateIndex, rainIndex, p) + KeptRecords([], dateIndex, rainIndex, p);
  }

  /** When the kept rows carry distinct timestamps, the order of the data
      rows does not change the station's total. */
  lemma RowOrderIrrelevant(rows1: seq<seq<string>>, rows2: seq<seq<string>>, dateIndex: nat, rainIndex: nat, p: CsvParsers)
    requires multiset(rows1) == multiset(rows2)
    requires Distinct(KeptRecords(rows1, dateIndex, rainIndex, p)) && Distinct(KeptRecords(rows2, dateIndex, rainIndex, p))
    ensures SeriesTotal(KeptRecords(rows1, dateIndex, rainIndex, p)) == SeriesTotal(KeptRecords(rows2, dateIndex, rainIndex, p))
  {
    KeptPermutation(rows1, rows2, dateIndex, rainIndex, p);
    PermutationInvariant(KeptRecords(rows1, dateIndex, rainIndex, p), KeptRecords(rows2, dateIndex, rainIndex, p));
  }

  /** A later row repeating a kept timestamp leaves the station's total unchanged (keep-first). */
  lemma RepeatedTimestampRowIgnored(rows: seq<seq<string>>, row: seq<string>, dateIndex: nat, rainIndex: nat, p: CsvParsers)
    requires ReadRow(row, dateIndex, rainIndex, p).Keep?
    requires ReadRow(row, dateIndex, rainIndex, p).record.time in Times(KeptRecords(rows, dateIndex, rainIndex, p))
    ensures SeriesTotal(KeptRecords(rows + [row], dateIndex, rainIndex, p)) == SeriesTotal(KeptRecords(rows, dateIndex, rainIndex, p))
  {
    var rec := ReadRow(row, dateIndex, rainIndex, p).record;
    KeptAppend(rows, [row], dateIndex, rainIndex, p);
    assert KeptRecords([row], dateIndex, rainIndex, p) == [rec] + KeptRecords([], dateIndex, rainIndex, p);
    LaterDuplicateIgnored(KeptRecords(rows, dateIndex, rainIndex, p), rec);
  }

  /** A skipped row leaves the parsed records unchanged. */
  lemma SkippedRowIgnored(rows: seq<seq<string>>, row: seq<string>, dateIndex: nat, rainIndex: nat, p: CsvParsers)
    requires ReadRow(row, dateIndex, rainIndex, p).Skip?
    ensures ReadRows(rows + [row], dateIndex, rainIndex, p) == ReadRows(rows, dateIndex, rainIndex, p)
  {
    assert (rows + [row])[..|rows|] == rows;
  }

  /** A parsed row appends exactly its record. */
  lemma KeptRowAppended(rows: seq<seq<string>>, row: seq<string>, dateIndex: nat, rainIndex: nat, p: CsvParsers)
    requires ReadRow(row, dateIndex, rainIndex, p).Keep?
    requires ReadRows(rows, dateIndex, rainIndex, p).Some?
    ensures ReadRows(rows + [row], dateIndex, rainIndex, p)
      == Some(ReadRows(rows, dateIndex, rainIndex, p).value + [ReadRow(row, dateIndex, rainIndex, p).record])
  {
    assert (rows + [row])[..|rows|] == rows;
  }

  /** Headers are lower-cased but the configured column name is not, so a
      mapping with an upper-case letter never matches and the station reads 0. */
  lemma UppercaseMappingReadsZero(text: string, mapping: string, k: nat, p: CsvParsers)
    requires k < |mapping| && 'A' <= mapping[k] <= 'Z'
    ensures CsvTotal(text, mapping, p) == Some(0.0)
  {
    var hs := Headers(text);
    forall i | 0 <= i < |hs| ensures hs[i] != mapping {
      if |hs[i]| > k {
        assert !('A' <= hs[i][k] <= 'Z');
      }
    }
    assert RainColumn(mapping) !in hs;
  }
}

=== FILE: station_fetch.dfy ===
/** Reading one user-defined station: the payload (already fetched through the
    relay or directly) is dispatched on the station's declared format. A
    missing payload or a parse failure gives None, which callers keep apart
    from a genuine reading of 0. */
module StationFetch {
  import opened Wrappers
  import StationCsv
  import StationJson
  import Text

  /** A configured station; coordinates only place it on the map and are left out. */
  datatype Station = Station(id: string, name: string, url: string, format: string, mapping: string)

  datatype Parsers = Parsers(csv: StationCsv.CsvParsers, json: StationJson.JsonParsers)

  /** `station.format === 'csv'`; every other format string takes the JSON branch. */
  predicate IsCsv(station: Station) {
    station.format == "csv"
  }

  /** Accumulated rain of a station given its payload (None when neither the
      relay nor the direct request answered with success). */
  function StationRain(station: Station, payload: Option<string>, p: Parsers): (r: Option<real>)
    ensures payload.None? ==> r.None?
    ensures payload.Some? && !IsCsv(station) ==>
      (r.None? <==> p.json.json(payload.value).None?)
    ensures payload.Some? && IsCsv(station) && !StationCsv.ColumnsFound(payload.value, station.mapping) ==>
      r == Some(0.0)
    ensures payload.Some? && IsCsv(station) ==> r == StationCsv.CsvTotal(payload.value, station.mapping, p.csv)
    ensures payload.Some? && !IsCsv(station) ==> r == StationJson.JsonTotal(payload.value, station.mapping, p.json)
  {
    match payload
    case None => None
    case Some(text) =>
      if IsCsv(station) then StationCsv.CsvTotal(text, station.mapping, p.csv)
      else StationJson.JsonTotal(text, station.mapping, p.json)
  }

  /** A station reads null exactly when its payload is missing, its JSON
      does not parse, or its CSV has both columns and a row that aborts the
      read; every other payload gives a number, 0 included. */
  lemma NullMeansFailure(station: Station, payload: Option<string>, p: Parsers)
    ensures StationRain(station, payload, p).None? <==>
      || payload.None?
      || (!IsCsv(station) && p.json.json(payload.value).None?)
      || (IsCsv(station) && StationCsv.ColumnsFound(payload.value, station.mapping)
          && StationCsv.SomeRowAborts(StationCsv.DataRows(payload.value),
               Text.IndexOf(StationCsv.Headers(payload.value), StationCsv.DateColumn) as nat,
               Text.IndexOf(StationCsv.Headers(payload.value), StationCsv.RainColumn(station.mapping)) as nat))
  {
  }
}

=== FILE: station_json.dfy ===
/** A station's JSON payload read into accumulated rain: walk a dotted path
    through the parsed document, then sum an array, take a number, or read
    anything else as 0. */
module StationJson {
  import opened Wrappers
  import opened Text
  import opened Json
  import Sums

  /** `JSON.parse` (None when it throws) and `Number(s)` on a string (None for NaN). */
  datatype JsonParsers = JsonParsers(json: string -> Option<Json>, number: string -> Option<real>)

  const DefaultPath: string := "daily.rain"

  /** `(station.mapping || 'daily.rain').split('.')`. */
  function PathKeys(mapping: string): (keys: seq<string>)
    ensures |keys| >= 1
    ensures forall i :: 0 <= i < |keys| ==> Avoids(keys[i], '.')
  {
    Split(if mapping == "" then DefaultPath else mapping, {'.'})
  }

  /** The navigation loop: step into `current[key]` while `current` is truthy
      and the key is defined; None is the `null` the loop leaves behind. */
  function Walk(v: Json, keys: seq<string>): (r: Option<Json>)
    ensures |keys| == 0 ==> r == Some(v)
    ensures |keys| > 0 && (!Truthy(v) || Property(v, keys[0]).None?) ==> r.None?
    ensures |keys| > 0 && Truthy(v) && Property(v, keys[0]).Some? ==> r == Walk(Property(v, keys[0]).value, keys[1..])
    decreases |keys|
  {
    if |keys| == 0 then Some(v)
    else if Truthy(v) && Property(v, keys[0]).Some? then Walk(Property(v, keys[0]).value, keys[1..])
    else None
  }

  /** `Number(x) || 0` for one array element. */
  function ElementValue(x: Json, p: JsonParsers): (r: real)
    ensures x.JNumber? ==> r == x.n
    ensures x.JNull? || (x.JBool? && !x.b) ==> r == 0.0
    ensures x == JBool(true) ==> r == 1.0
    ensures x.JString? && p.number(x.s).Some? ==> r == p.number(x.s).value
    ensures x.JString? && p.number(x.s).None? ==> r == 0.0
  {
    match x
    case JNumber(n) => n
    case JBool(b) => if b then 1.0 else 0.0
    case JString(s) => p.number(s).GetOr(0.0)
    case _ => 0.0
  }

  function ElementValues(items: seq<Json>, p: JsonParsers): (r: seq<real>)
    ensures |r| == |items|
    ensures forall i :: 0 <= i < |items| ==> r[i] == ElementValue(items[i], p)
  {
    seq(|items|, i requires 0 <= i < |items| => ElementValue(items[i], p))
  }

  /** The final shape test: array -> sum of coerced elements, number -> itself, else 0. */
  function Reduce(current: Option<Json>, p: JsonParsers): (r: real)
    ensures current.Some? && current.value.JNumber? ==> r == current.value.n
    ensures current.None? || (!current.value.JArray? && !current.value.JNumber?) ==> r == 0.0
    ensures current == Some(JArray([])) ==> r == 0.0
  {
    match current
    case Some(JArray(items)) => Sums.Sum(ElementValues(items, p))
    case Some(JNumber(n)) => n
    case _ => 0.0
  }

  /** Accumulated rain of a JSON payload; None when the text is not JSON. */
  function JsonTotal(text: string, mapping: string, p: JsonParsers): (r: Option<real>)
    ensures r.None? <==> p.json(text).None?
    ensures r.Some? ==> r.value == Reduce(Walk(p.json(text).value, PathKeys(mapping)), p)
  {
    match p.json(text)
    case None => None
    case Some(doc) => Some(Reduce(Walk(doc, PathKeys(mapping)), p))
  }

  /** The document holding `leaf` under the nested keys `keys`. */
  function Nest(keys: seq<string>, leaf: Json): Json {
    if |keys| == 0 then leaf else JObject(map[keys[0] := Nest(keys[1..], leaf)])
  }

  /** Walking a path through the objects that nest along it reaches the leaf. */
  lemma WalkNest(keys: seq<string>, leaf: Json)
    ensures Walk(Nest(keys, leaf), keys) == Some(leaf)
  {
    NestIsObjectPath(keys, leaf);
    WalkObjectPath(Nest(keys, leaf), keys, leaf);
  }

  /** `leaf` sits in `v` under the keys `keys`, through objects that may
      hold any other fields besides. */
  predicate ObjectPath(v: Json, keys: seq<string>, leaf: Json)
    decreases |keys|
  {
    if |keys| == 0 then v == leaf
    else v.JObject? && keys[0] in v.fields && ObjectPath(v.fields[keys[0]], keys[1..], leaf)
  }

  /** The walk follows an object path to its leaf. */
  lemma {:induction false} WalkObjectPath(v: Json, keys: seq<string>, leaf: Json)
    requires ObjectPath(v, keys, leaf)
    ensures Walk(v, keys) == Some(leaf)
    decreases |keys|
  {
    if |keys| > 0 {
      WalkObjectPath(v.fields[keys[0]], keys[1..], leaf);
    }
  }

  /** A nest is an object path. */
  lemma {:induction false} NestIsObjectPath(keys: seq<string>, leaf: Json)
    ensures ObjectPath(Nest(keys, leaf), keys, leaf)
    decreases |keys|
  {
    if |keys| > 0 {
      NestIsObjectPath(keys[1..], leaf);
    }
  }

  /** A dotted mapping reaches the value stored at the keys it names, however
      many other fields the objects along the way hold. */
  lemma DottedPathReachesLeaf(text: string, keys: seq<string>, leaf: Json, p: JsonParsers)
    requires |keys| >= 1 && keys[0] != ""
    requires forall i :: 0 <= i < |keys| ==> Avoids(keys[i], '.')
    requires p.json(text).Some? && ObjectPath(p.json(text).value, keys, leaf)
    ensures JsonTotal(text, JoinWith(keys, '.'), p) == Some(Reduce(Some(leaf), p))
  {
    var mapping := JoinWith(keys, '.');
    assert mapping != "" by {
      JoinNonEmpty(keys);
    }
    SplitJoin(keys, '.');
    WalkObjectPath(p.json(text).value, keys, leaf);
  }

  lemma {:induction false} JoinNonEmpty(keys: seq<string>)
    requires |keys| >= 1 && keys[0] != ""
    ensures JoinWith(keys, '.') != ""
  {
    if |keys| > 1 {
      assert |JoinWith(keys, '.')| >= |keys[0]|;
    }
  }

  /** A key missing from an object ends the walk, and the station reads 0. */
  lemma MissingKeyReadsZero(fields: map<string, Json>, keys: seq<string>, p: JsonParsers)
    requires |keys| >= 1 && keys[0] !in fields
    ensures Walk(JObject(fields), keys).None?
    ensures Reduce(Walk(JObject(fields), keys), p) == 0.0
  {
  }

  /** The sum over an array splits over its parts: order of reading does not matter. */
  lemma ArraySumAppend(a: seq<Json>, b: seq<Json>, p: JsonParsers)
    ensures Reduce(Some(JArray(a + b)), p) == Reduce(Some(JArray(a)), p) + Reduce(Some(JArray(b)), p)
  {
    assert ElementValues(a + b, p) == ElementValues(a, p) + ElementValues(b, p);
    Sums.SumAppend(ElementValues(a, p), ElementValues(b, p));
  }

  /** A one-element array totals that element's value; with `ArraySumAppend`
      this fixes the total of every array. */
  lemma SingletonArray(x: Json, p: JsonParsers)
    ensures Reduce(Some(JArray([x])), p) == ElementValue(x, p)
  {
    var vs := ElementValues([x], p);
    assert vs == [ElementValue(x, p)];
    assert vs[..0] == [];
    assert Sums.Sum(vs) == Sums.Sum(vs[..0]) + vs[0];
  }

  /** An array totals the sum of its elements' values, read one at a time
      from the front. */
  lemma {:induction false} ArrayTotal(items: seq<Json>, p: JsonParsers)
    ensures |items| == 0 ==> Reduce(Some(JArray(items)), p) == 0.0
    ensures |items| > 0 ==> Reduce(Some(JArray(items)), p) == ElementValue(items[0], p) + Reduce(Some(JArray(items[1..])), p)
  {
    if |items| > 0 {
      assert items == [items[0]] + items[1..];
      ArraySumAppend([items[0]], items[1..], p);
      SingletonArray(items[0], p);
    }
  }

  function RainArray(): Json {
    JArray([JNumber(1.0), JNumber(2.0), JNull, JNumber(4.0)])
  }

  lemma RainArraySum(p: JsonParsers)
    ensures Reduce(Some(RainArray()), p) == 7.0
  {
    var vs := ElementValues(RainArray().items, p);
    assert vs == [1.0, 2.0, 0.0, 4.0];
    assert [1.0][..0] == [];
    assert Sums.Sum([1.0]) == 1.0;
    assert [1.0, 2.0][..1] == [1.0];
    assert Sums.Sum([1.0, 2.0]) == 3.0;
    assert [1.0, 2.0, 0.0][..2] == [1.0, 2.0];
    assert Sums.Sum([1.0, 2.0, 0.0]) == 3.0;
    assert vs[..3] == [1.0, 2.0, 0.0];
  }

  lemma DefaultPathKeys()
    ensures PathKeys("") == ["daily", "rain"]
    ensures PathKeys("daily.rain") == ["daily", "rain"]
  {
    var keys := ["daily", "rain"];
    assert JoinWith(keys, '.') == "daily.rain";
    SplitJoin(keys, '.');
  }

  /** The worked example: "daily.rain" over {"daily":{"rain":[1,2,null,4]}}
      reads 7, and so does the default mapping. */
  lemma DailyRainExample(text: string, p: JsonParsers)
    requires p.json(text) == Some(Nest(["daily", "rain"], RainArray()))
    ensures JsonTotal(text, "", p) == Some(7.0)
    ensures JsonTotal(text, "daily.rain", p) == Some(7.0)
  {
    DefaultPathKeys();
    WalkNest(["daily", "rain"], RainArray());
    RainArraySum(p);
  }
}

=== FILE: sums.dfy ===
/** Left-to-right sums as `array.reduce((sum, x) => sum + x, 0)` computes
    them, and the `x || 0` coercion that turns `null` into 0. */
module Sums {
  import opened Wrappers

  function Sum(xs: seq<real>): real {
    if |xs| == 0 then 0.0 else Sum(xs[..|xs| - 1]) + xs[|xs| - 1]
  }

  /** `x || 0` for a value that is a number or `null`. */
  function OrZero(x: Option<real>): (r: real)
    ensures x.Some? ==> r == x.value
    ensures x.None? ==> r == 0.0
  {
    x.GetOr(0.0)
  }

  /** `xs.reduce((a, b) => a + (b || 0), 0)`. */
  function SumOrZero(xs: seq<Option<real>>): real {
    if |xs| == 0 then 0.0 else SumOrZero(xs[..|xs| - 1]) + OrZero(xs[|xs| - 1])
  }

  /** The sum of a concatenation is the sum of the parts. */
  lemma {:induction false} SumAppend(a: seq<real>, b: seq<real>)
    ensures Sum(a + b) == Sum(a) + Sum(b)
    decreases |b|
  {
    if |b| > 0 {
      SumAppend(a, b[..|b| - 1]);
      assert (a + b)[..|a + b| - 1] == a + b[..|b| - 1];
    } else {
      assert a + b == a;
    }
  }

  lemma {:induction false} SumOrZeroAppend(a: seq<Option<real>>, b: seq<Option<real>>)
    ensures SumOrZero(a + b) == SumOrZero(a) + SumOrZero(b)
    decreases |b|
  {
    if |b| > 0 {
      SumOrZeroAppend(a, b[..|b| - 1]);
      assert (a + b)[..|a + b| - 1] == a + b[..|b| - 1];
    } else {
      assert a + b == a;
    }
  }

  /** Null entries never change the total: it is the sum of the numbers present. */
  lemma {:induction false} SumOrZeroIsSumOfPresent(xs: seq<Option<real>>)
    ensures SumOrZero(xs) == Sum(seq(|xs|, i requires 0 <= i < |xs| => OrZero(xs[i])))
    decreases |xs|
  {
    if |xs| > 0 {
      SumOrZeroIsSumOfPresent(xs[..|xs| - 1]);
      var ys := seq(|xs|, i requires 0 <= i < |xs| => OrZero(xs[i]));
      assert ys[..|ys| - 1] == seq(|xs| - 1, i requires 0 <= i < |xs| - 1 => OrZero(xs[..|xs| - 1][i]));
    }
  }

  /** Non-negative entries give a non-negative total. */
  lemma {:induction false} SumOrZeroNonNegative(xs: seq<Option<real>>)
    requires forall i :: 0 <= i < |xs| && xs[i].Some? ==> xs[i].value >= 0.0
    ensures SumOrZero(xs) >= 0.0
    decreases |xs|
  {
    if |xs| > 0 {
      SumOrZeroNonNegative(xs[..|xs| - 1]);
    }
  }

  /** A series of nulls only sums to zero. */
  lemma {:induction false} SumOrZeroAllNull(xs: seq<Option<real>>)
    requires forall i :: 0 <= i < |xs| ==> xs[i].None?
    ensures SumOrZero(xs) == 0.0
    decreases |xs|
  {
    if |xs| > 0 {
      SumOrZeroAllNull(xs[..|xs| - 1]);
    }
  }
}

=== FILE: text.dfy ===
/** String helpers with the meaning of the JavaScript built-ins the dashboard
    uses: `trim`, `split` on a character class, ASCII `toLowerCase`, quote
    stripping and `indexOf` on an array of strings. */
module Text {

  /** The code points `String.prototype.trim` removes (WhiteSpace and
      LineTerminator in ECMAScript). */
  predicate IsJsSpace(c: char) {
    || c == ' ' || c == '\t' || c == '\n' || c == '\r'
    || c == '\U{B}' || c == '\U{C}' || c == '\U{A0}' || c == '\U{FEFF}'
    || c == '\U{1680}' || ('\U{2000}' <= c <= '\U{200A}')
    || c == '\U{2028}' || c == '\U{2029}' || c == '\U{202F}'
    || c == '\U{205F}' || c == '\U{3000}'
  }

  /** Drops leading whitespace: the result is a suffix of `s` and everything
      dropped is whitespace. */
  function TrimStart(s: string): (r: string)
    ensures |r| <= |s| && r == s[|s| - |r|..]
    ensures forall k :: 0 <= k < |s| - |r| ==> IsJsSpace(s[k])
    ensures |r| > 0 ==> !IsJsSpace(r[0])
  {
    if |s| > 0 && IsJsSpace(s[0]) then TrimStart(s[1..]) else s
  }

  /** Drops trailing whitespace: the result is a prefix of `s` and everything
      dropped is whitespace. */
  function TrimEnd(s: string): (r: string)
    ensures |r| <= |s| && r == s[..|r|]
    ensures forall k :: |r| <= k < |s| ==> IsJsSpace(s[k])
    ensures |r| > 0 ==> !IsJsSpace(r[|r| - 1])
  {
    if |s| > 0 && IsJsSpace(s[|s| - 1]) then TrimEnd(s[..|s| - 1]) else s
  }

  /** `r` is the part of `s` starting at `i`, and everything of `s` outside
      that part is whitespace. */
  predicate TrimmedAt(s: string, r: string, i: nat) {
    && i + |r| <= |s| && r == s[i..i + |r|]
    && (forall k :: 0 <= k < i ==> IsJsSpace(s[k]))
    && (forall k :: i + |r| <= k < |s| ==> IsJsSpace(s[k]))
  }

  /** `s.trim()`: the part of `s` left after dropping whitespace at both ends. */
  function Trim(s: string): (r: string)
    ensures |r| <= |s|
    ensures exists i :: TrimmedAt(s, r, i)
    ensures |r| > 0 ==> !IsJsSpace(r[0]) && !IsJsSpace(r[|r| - 1])
    ensures (|s| == 0 || (!IsJsSpace(s[0]) && !IsJsSpace(s[|s| - 1]))) ==> r == s
  {
    var front := TrimStart(s);
    var r := TrimEnd(front);
    assert TrimmedAt(s, r, |s| - |front|);
    r
  }

  /** Any two results with the shape `Trim` promises are the same string:
      the shape alone determines what `trim` returns. */
  lemma TrimUnique(s: string, r1: string, i1: nat, r2: string, i2: nat)
    requires TrimmedAt(s, r1, i1) && (|r1| > 0 ==> !IsJsSpace(r1[0]) && !IsJsSpace(r1[|r1| - 1]))
    requires TrimmedAt(s, r2, i2) && (|r2| > 0 ==> !IsJsSpace(r2[0]) && !IsJsSpace(r2[|r2| - 1]))
    ensures r1 == r2
  {
  }

  /** Number of characters of `s` that belong to `delims`. */
  function CountIn(s: string, delims: set<char>): nat {
    if |s| == 0 then 0
    else (if s[0] in delims then 1 else 0) + CountIn(s[1..], delims)
  }

  /** `s.split(/[...]/)` where the character class is `delims`: one field per
      delimiter plus one, and no field holds a delimiter. */
  function Split(s: string, delims: set<char>): (r: seq<string>)
    ensures |r| == CountIn(s, delims) + 1
    ensures forall i, k :: 0 <= i < |r| && 0 <= k < |r[i]| ==> r[i][k] !in delims
  {
    if |s| == 0 then [""]
    else if s[0] in delims then [""] + Split(s[1..], delims)
    else
      var rest := Split(s[1..], delims);
      [[s[0]] + rest[0]] + rest[1..]
  }

  /** `fields.join(d)`. */
  function JoinWith(fields: seq<string>, d: char): string
    requires |fields| >= 1
  {
    if |fields| == 1 then fields[0] else fields[0] + [d] + JoinWith(fields[1..], d)
  }

  predicate Avoids(f: string, d: char) {
    forall k :: 0 <= k < |f| ==> f[k] != d
  }

  /** Joining the pieces of a split with the one delimiter gives the string back. */
  lemma {:induction false} JoinSplit(s: string, d: char)
    ensures JoinWith(Split(s, {d}), d) == s
    decreases |s|
  {
    if |s| == 0 {
    } else if s[0] == d {
      JoinSplit(s[1..], d);
      assert s == [d] + s[1..];
    } else {
      var rest := Split(s[1..], {d});
      JoinSplit(s[1..], d);
      if |rest| == 1 {
        assert s == [s[0]] + s[1..];
      } else {
        assert JoinWith(rest, d) == rest[0] + [d] + JoinWith(rest[1..], d);
        var pieces := Split(s, {d});
        assert pieces[1..] == rest[1..];
        assert s == [s[0]] + s[1..];
      }
    }
  }

  lemma {:induction false} SplitField(f: string, t: string, d: char)
    requires Avoids(f, d)
    ensures Split(f + [d] + t, {d}) == [f] + Split(t, {d})
    ensures Split(f, {d}) == [f]
    decreases |f|
  {
    if |f| == 0 {
      assert f + [d] + t == [d] + t;
      assert ([d] + t)[1..] == t;
    } else {
      SplitField(f[1..], t, d);
      assert (f + [d] + t)[1..] == f[1..] + [d] + t;
      assert [f[0]] + f[1..] == f;
    }
  }

  /** Splitting a join of delimiter-free fields gives the fields back. */
  lemma {:induction false} SplitJoin(fields: seq<string>, d: char)
    requires |fields| >= 1
    requires forall i :: 0 <= i < |fields| ==> Avoids(fields[i], d)
    ensures Split(JoinWith(fields, d), {d}) == fields
    decreases |fields|
  {
    SplitField(fields[0], "", d);
    if |fields| > 1 {
      SplitJoin(fields[1..], d);
      SplitField(fields[0], JoinWith(fields[1..], d), d);
      assert fields == [fields[0]] + fields[1..];
    }
  }

  /** Every member of the class `delims` written as the one character `d`. */
  function Replace(s: string, delims: set<char>, d: char): (r: string)
    ensures |r| == |s|
    ensures forall k :: 0 <= k < |s| ==> r[k] == if s[k] in delims then d else s[k]
  {
    if |s| == 0 then "" else [if s[0] in delims then d else s[0]] + Replace(s[1..], delims, d)
  }

  /** Splitting on a character class is splitting on one of its members
      once every other member has been written as that one. */
  lemma {:induction false} SplitClass(s: string, delims: set<char>, d: char)
    requires d in delims
    ensures Split(s, delims) == Split(Replace(s, delims, d), {d})
    decreases |s|
  {
    if |s| > 0 {
      SplitClass(s[1..], delims, d);
      var t := Replace(s, delims, d);
      assert t[1..] == Replace(s[1..], delims, d);
    }
  }

  /** The fields of a class split, joined with `d`, give the input with
      every delimiter written as `d`: the fields hold exactly the text
      between delimiters. */
  lemma {:induction false} JoinSplitClass(s: string, delims: set<char>, d: char)
    requires d in delims
    ensures JoinWith(Split(s, delims), d) == Replace(s, delims, d)
  {
    SplitClass(s, delims, d);
    JoinSplit(Replace(s, delims, d), d);
  }

  /** ASCII `toLowerCase` of one character. */
  function LowerChar(c: char): (r: char)
    ensures 'A' <= c <= 'Z' ==> r as int == c as int + 32
    ensures !('A' <= c <= 'Z') ==> r == c
  {
    if 'A' <= c <= 'Z' then (c as int + 32) as char else c
  }

  function Lower(s: string): (r: string)
    ensures |r| == |s|
    ensures forall k :: 0 <= k < |r| ==> r[k] == LowerChar(s[k])
  {
    seq(|s|, k requires 0 <= k < |s| => LowerChar(s[k]))
  }

  /** `s.replace(/[...]/g, '')`: every character of `cs` removed, the rest kept in order. */
  function RemoveAll(s: string, cs: set<char>): (r: string)
    ensures |r| <= |s|
    ensures forall k :: 0 <= k < |r| ==> r[k] !in cs
    ensures forall k :: 0 <= k < |r| ==> r[k] in s
    ensures (forall k :: 0 <= k < |s| ==> s[k] !in cs) ==> r == s
    ensures |s| == 1 && s[0] in cs ==> r == ""
  {
    if |s| == 0 then ""
    else if s[0] in cs then RemoveAll(s[1..], cs)
    else [s[0]] + RemoveAll(s[1..], cs)
  }

  /** Removal works piece by piece: with the one-character cases of
      `RemoveAll`'s contract, this says every kept character stays, in order. */
  lemma {:induction false} RemoveAllAppend(a: string, b: string, cs: set<char>)
    ensures RemoveAll(a + b, cs) == RemoveAll(a, cs) + RemoveAll(b, cs)
    decreases |a|
  {
    if |a| > 0 {
      RemoveAllAppend(a[1..], b, cs);
      assert (a + b)[1..] == a[1..] + b;
    } else {
      assert a + b == b;
    }
  }

  /** `s.replace(/^"|"$/g, '')`: one leading and one trailing double quote removed. */
  function StripOuterQuotes(s: string): (r: string)
    ensures |s| >= 2 && s[0] == '"' && s[|s| - 1] == '"' ==> r == s[1..|s| - 1]
    ensures |s| >= 1 && s[0] == '"' && (|s| == 1 || s[|s| - 1] != '"') ==> r == s[1..]
    ensures |s| >= 1 && s[0] != '"' && s[|s| - 1] == '"' ==> r == s[..|s| - 1]
    ensures (|s| == 0 || s[0] != '"') && (|s| == 0 || s[|s| - 1] != '"') ==> r == s
  {
    var front := if |s| > 0 && s[0] == '"' then s[1..] else s;
    if |front| > 0 && front[|front| - 1] == '"' then front[..|front| - 1] else front
  }

  /** `xs.indexOf(x)`: the first position holding `x`, or -1 when there is none. */
  function IndexOf<T(==)>(xs: seq<T>, x: T): (r: int)
    ensures -1 <= r < |xs|
    ensures r == -1 <==> x !in xs
    ensures r >= 0 ==> xs[r] == x && forall j :: 0 <= j < r ==> xs[j] != x
  {
    if |xs| == 0 then -1
    else if xs[0] == x then 0
    else
      var k := IndexOf(xs[1..], x);
      if k == -1 then -1 else k + 1
  }
}

=== FILE: wrappers.dfy ===
/** The optional value used wherever the dashboard distinguishes "no value"
    (JavaScript `null`/`undefined`, a failed parse) from a real value. */
module Wrappers {

  datatype Option<+T> = None | Some(value: T) {

    /** Returns the value held in Some, or `default` when None. */
    function GetOr(default: T): T {
      match this
      case Some(v) => v
      case None => default
    }
  }
}
